=== FILE: README.md ===
# Reminder lifecycle engine — a Dafny model

This project models the core of a small reminder daemon. The daemon mirrors a
calendar into a SQLite store of occurrences. Each occurrence gets four rule
reminders (a week before, a day before, 06:00 on the event date, 30 minutes
before). The user can add custom reminders by snoozing. The daemon fires due
reminders under a global throttle, and answers line-delimited JSON commands
(`due`, `fire_next`, `get_reminder`, `ack_reminder`, `drop_occurrence`,
`snooze`, `test`, …).

Modules, following the source's layout:

- `Base` holds `Option`.
- `PyText` models Python's `str.strip`, `str(int)` and `int(str)` for the parts the identifiers use. `int()` skips a narrower set of whitespace than `strip()`: it rejects the separators U+001C to U+001F.
- `Refs` models `ReminderRef`: the external ids `r:<id>` and `c:<id>`.
- `Tables` holds the reminder row, its lifecycle predicates and SQLite's `rowcount` for an `UPDATE`.
- `Store` models the store functions of `db.py` on an immutable `Store` value:
  - the occurrences are a map keyed by `(event_id, start_utc)`;
  - each reminder table is a sequence, where row id *n* is element *n − 1*;
  - `Valid` is what the schema enforces: the foreign keys, and one rule row per `(event_id, occ_start_utc, rule_name)`.
- `Ordering` and `Due` cover `ORDER BY trigger_utc … LIMIT n` over the union of both tables, and with them `list_due_reminders` and `list_next_pending_reminders`.
- `Rules` models `compute_rule_specs` on datetimes with a fixed UTC offset.
- `Reconcile` models the `sync` pass: upsert, ensure rule reminders, then the unseen sweep.
- `Coverage` proves that a pass gives an event new to the store a reminder for every rule with a future trigger.
- `Daemon` models `DaemonState.sync`, `fire_one_due` and `fire_one_any`.
- `Commands` models `_handle_request`.
- `Facts` holds lemmas that relate several store calls.

Calls the model cannot make are parameters:

- the calendar's events;
- the local zone's UTC offset;
- the successive readings of the UTC clock, as `clock: nat -> int`;
- whether spawning the presenter succeeds, as `spawnOk`.

When spawning fails, the reminder has already been marked fired. The handler
then raises (`Raised`), and `last_spawn_utc` keeps its old value.

Behaviour of the code that the model keeps, and that a reader might not expect:

- `ensure_rule_reminder` returns `rowcount == 1`. Its docstring says "True if
  inserted". The code also returns true when it refreshes an existing row that
  is neither acked nor cancelled, and that includes rows that have already
  fired. The model follows the code (`Facts.EnsureRefreshesFiredRow`).
- `ack_reminder` ignores `cancelled_utc`.
- `drop_occurrence` also cancels reminders that fired but were never acked.
- `cancel_unseen_rule_reminders` spares rows that have fired.
- `fire_one_any` reads the clock twice. A reminder whose trigger lies between
  the two readings is neither due at the first reading nor after the second,
  so it is not fired (`Daemon.FireOneAnyMissesBetweenReadings`).
- Two events of one pass with the same id and UTC start but different start offsets share an occurrence. Their 06:00 triggers differ, and the later event's refresh replaces the earlier one's, which is why `Coverage.NewEventGetsReminders` asks events sharing a key to share the start offset.
- SQL does not order rows with equal `trigger_utc`. The model lists rule rows
  before custom rows, each by id. Every property below holds whatever that
  order is.

## Model

| member | source | states |
|---|---|---|
| PyText.IntRoundTrip | db.py:32-33 | `int(str(i)) == i` for every integer, negative ones included: the id part of an external id always parses back |
| PyText.BlankIsNotAnInt | db.py:26-30 | `int()` of an empty or all-whitespace string raises, so such an id is rejected |
| PyText.IntSkipsSpaceButNotSeparators | db.py:26-29 | `strip()` removes any whitespace character before the digits, but `int()` skips one only when it is not a separator U+001C to U+001F, and otherwise raises |
| Refs.ToExternalId | db.py:32-33 | the external id starts with the kind's tag `r:` or `c:`, and the rest parses as the id |
| Refs.Parse | db.py:17-30 | parsing succeeds exactly when the stripped text starts with `r:` or `c:` and the rest is an integer; the result has that kind and that integer |
| Refs.ParseRoundTrip | db.py:17-33 | `parse(to_external_id(ref)) == ref` for every reference |
| Refs.ParseIgnoresPadding | db.py:26 | surrounding whitespace does not change what an external id parses to |
| Refs.RejectsUntagged | db.py:27-30 | text that does not start with `r:` or `c:` after stripping is rejected |
| Tables.UpdateCountsChangedRows | db.py:247-259 | when an update changes every row it matches, `rowcount` equals the number of rows whose contents changed |
| Tables.NoneDifferIffEqual | db.py:247-259 | a zero changed-row count means the table is unchanged, and conversely |
| Store.Valid | db.py:82-113 | read through references, every reminder belongs to a stored occurrence, carries a rule name exactly when it is a rule reminder, and no two rule reminders share `(event_id, occ_start_utc, rule_name)` |
| Store.GetOccurrence | db.py:167-187 | an occurrence is found exactly when its key is stored, with the stored end, all-day, dropped and last-seen values |
| Store.ListOccurrencesNotSeenSince | db.py:190-211 | the result holds exactly the stored occurrences last seen before the cutoff |
| Store.UpsertOccurrence | db.py:122-164 | a new key is inserted undropped and reports (true, true); an existing key gets the new end, all-day and last-seen values and keeps its dropped flag; it reports changed exactly when end or all-day differ; nothing else changes and the schema invariant is kept |
| Store.EnsureRuleReminder | db.py:214-244 | a missing rule key gets a fresh pending row and reports true; an existing row is refreshed (trigger and ack requirement) and reports true exactly when it is neither acked nor cancelled, otherwise it is untouched and reports false; the key stays unique |
| Store.CancelPendingForOccurrence | db.py:247-296 | exactly the rows of the occurrence that are neither acked nor cancelled get `cancelled_utc`; the count returned is the number of rows changed; the other table and the occurrences stay |
| Store.InsertCustomReminder | db.py:262-281 | the returned id named no row before and now names the new pending row with the given fields; every other reference reads as before |
| Store.DropOccurrence | db.py:299-320 | the occurrence, if stored, is marked dropped; in both tables exactly its open rows are cancelled at `now`; the two counts are the rows changed per table |
| Store.MarkFired | db.py:523-529 | `fired_utc` is set on the named row whatever its state; an unknown id changes nothing; other rows stay |
| Store.AckReminder | db.py:532-551 | reports true exactly when the row exists and is unacked, and then sets `acked_utc`; otherwise nothing changes |
| Store.CancelUnseenRuleReminders | db.py:554-577 | exactly the fully pending rule rows whose occurrence was last seen before the cutoff are cancelled; the count is the rows changed; custom rows and occurrences stay |
| Ordering.SortBy | db.py:364 | the result is ordered by the key and is a permutation of the input |
| Ordering.Limit | db.py:365 | `LIMIT n` keeps a prefix of length min(n, size); a negative n keeps everything |
| Ordering.LimitKeepsEarliest | db.py:364-365 | an element of a sorted list that `LIMIT n` cuts off means the cap was reached, and it sorts no earlier than any kept element |
| Due.ListDueReminders | db.py:323-392 | every listed reminder exists and is pending with trigger ≤ now; the list is sorted by trigger, has no repeats and has at most `limit` entries; a due reminder is left out only when the list is full of reminders triggering no later |
| Due.ListNextPendingReminders | db.py:395-463 | the same guarantees for pending reminders with trigger > now |
| Due.LookupAgreesWithUnion | db.py:466-520 | looking a reference up by id finds a row exactly when reading both tables lists a row under that reference, and finds the listed row |
| Due.QueryAnswers | db.py:323-366 | the union query is sound, sorted, without repeats, bounded, and leaves out only reminders no earlier than every listed one |
| Rules.ToUtcReadsWallInZone | reminders.py:11-18 | the UTC instant plus the zone's offset is the wall clock; a naive value reads as the local zone attached to it; an aware value does not depend on the local zone |
| Rules.SixAmOnEventDate | reminders.py:28-31 | the result keeps the start's zone and calendar date, at 06:00 wall time |
| Rules.ComputeRuleSpecs | reminders.py:34-66 | four specs named week_before, day_before, six_am, minus_30m, with ack requirements 0, 1, 0, 1; they trigger 7 days, 1 day and 30 minutes before the start, and at 06:00 on the start's date, all in the start's zone |
| Rules.SpecsIgnoreEndAndAllDay | reminders.py:34-66 | the specs depend on the start alone |
| Rules.RelativeTriggersOrdered | reminders.py:45-66 | week_before < day_before < minus_30m < start, as instants |
| Rules.SixAmAfterStartIffEarlyStart | reminders.py:28-31 | the 06:00 reminder comes after the start exactly when the start's wall time is before 06:00 |
| Reconcile.EnsureSpecs | daemon.py:132-157 | the spec loop touches only rule rows: occurrences and custom rows stay |
| Reconcile.EnsureSpecsCounts | daemon.py:132-157 | `skipped_past` grows by the number of specs triggering at or before `started`; `rule_changed` grows by at most the number of the others; no other counter moves |
| Reconcile.SyncEvent | daemon.py:105-157 | an event without an id changes nothing; otherwise its occurrence is stored afterwards; custom rows stay |
| Reconcile.SyncEventCounts | daemon.py:105-157 | `seen_from_gcal` grows by one exactly for an event with an id; `occ_changed` grows only with `occ_upserted`, and that only with `seen_from_gcal`; the event adds at most four to `skipped_past` and `rule_changed` together |
| Reconcile.SyncEventsCounts | daemon.py:105-157 | over the loop, `seen_from_gcal` grows by the number of events with an id, and the relations between the counters hold |
| Reconcile.SyncStore | daemon.py:88-176 | custom rows stay; `seen_from_gcal` is the number of events with an id; `occ_changed` ≤ `occ_upserted` ≤ `seen_from_gcal`; `skipped_past` + `rule_changed` ≤ 4 × `seen_from_gcal` |
| Reconcile.SyncStoreSpec | daemon.py:88-176 | after a pass: the schema invariant holds; custom rows are untouched; observed occurrences exist with last-seen = started; unobserved ones are untouched; dropped flags never change; no rule row gets a trigger at or before `started`; only undropped occurrences seen in the pass gain or refresh rule rows; every fully pending rule row belongs to an occurrence seen at or after `started` |
| Reconcile.UnseenOccurrenceRetracted | db.py:554-577 | an occurrence last seen before the pass and absent from it keeps no fully pending rule reminder |
| Reconcile.SyncEventsEvolves | daemon.py:105-157 | each event-loop step only adds or re-sees occurrences and adds or refreshes rule rows with future triggers, for live occurrences seen in the pass |
| Coverage.EnsureSpecsCovers | daemon.py:132-157 | after the spec loop, every spec with a trigger after `started` has its rule row, either carrying that trigger and ack requirement or closed |
| Coverage.SyncEventCovers | daemon.py:106-157 | for one event whose occurrence is not dropped, every rule with a future trigger is covered |
| Coverage.SyncEventKeepsCover | daemon.py:105-157 | an event of another occurrence leaves every rule row of this occurrence as it was |
| Coverage.SyncEventsCover | daemon.py:105-157 | when an event of the loop has the occurrence's key and every such event derives the same specs, each spec with a future trigger is covered after the loop |
| Coverage.CoveredNewRowSurvives | db.py:554-577 | a covered rule row of an occurrence new to the pass is fully pending with its trigger, and the unseen sweep spares it |
| Coverage.SameKeySameSpecs | reminders.py:34-66 | two events with the same occurrence key and the same start offset derive the same rule specs |
| Coverage.NewEventGetsReminders | daemon.py:88-176 | a pass that sees an event whose occurrence is new to the store leaves a fully pending rule reminder, with the right trigger and ack requirement, for each of its rules whose trigger is after `started`; other events of the pass with that occurrence key must share its start offset |
| Daemon.Sync | daemon.py:88-176 | `last_sync_utc` becomes the pass's clock reading; the other settings stay; the schema invariant is kept |
| Daemon.FireOneDue | daemon.py:232-254 | a throttled call changes nothing; otherwise nothing fires exactly when nothing is due; a fired reminder was due and no due reminder triggers earlier; it is marked fired at `now`; `last_spawn_utc` moves to `now` only on a successful spawn |
| Daemon.FireOneAny | daemon.py:257-277 | the schema invariant is kept, and a call that fires nothing changes nothing |
| Daemon.FireOneAnyIdle | daemon.py:257-277 | nothing fires exactly when nothing is due at the first clock reading and nothing triggers after the second |
| Daemon.FireOneAnyPrefersDue | daemon.py:261-263 | while a reminder is due, `fire_one_any` behaves as `fire_one_due` with the throttle ignored |
| Daemon.FireOneAnyFallsBack | daemon.py:265-277 | with nothing due, the earliest reminder triggering after the second reading fires, marked fired at that reading |
| Daemon.FireOneAnyFires | daemon.py:257-277 | whatever fires was due at the first reading or upcoming after the second, and is marked fired at that reading |
| Daemon.ThrottleLifts | daemon.py:234-235 | with `last_spawn_utc` zero or at least `spawn_throttle_s` in the past, the throttle does not apply: the call acts as one that ignores it |
| Daemon.StartUnthrottled | daemon.py:60-63 | a freshly started daemon has `last_spawn_utc` zero, so its first `fire_one_due` is never throttled and acts as one that ignores the throttle |
| Daemon.ThrottleSpacesSpawns | daemon.py:234-254 | after a successful spawn at a nonzero time, a throttled attempt less than `spawn_throttle_s` later fires nothing |
| Daemon.FiredLeavesQueue | daemon.py:241-253 | a fired reminder is marked before its presenter runs, so no later due query returns it, whether or not the spawn succeeded |
| Daemon.FireOneAnyMissesBetweenReadings | daemon.py:257-267 | when every pending reminder triggers after the first clock reading but no later than the second, `fire_one_any` fires nothing |
| Daemon.FireOneAnyIdleIffNothingPending | daemon.py:257-277 | with equal clock readings, `fire_one_any` fires nothing exactly when no reminder is pending |
| Commands.HandleNext | daemon.py:289-297 | a non-integer limit raises; a limit below 1 is rejected; otherwise the reply lists identified events in start order, at most `limit`; all of them when fewer are listed, and an event left out starts no earlier than any listed one |
| Commands.HandleDue | daemon.py:299-319 | a non-integer limit, or one beyond the 64-bit range that SQLite's `LIMIT` takes, raises; a limit below 1 is rejected; every other limit succeeds, listing due reminders sorted, at most `limit`, earliest first; the state never changes |
| Commands.HandleFireNext | daemon.py:321-325 | `no_due_reminders` exactly when nothing is due; otherwise the earliest due reminder is marked fired and its id returned, or the spawn failure raises |
| Commands.HandleGetReminder | daemon.py:327-369 | `missing_id`, `invalid_reminder_id` and `reminder_not_found` exactly in their cases; an id beyond 64 bits raises; in a store that keeps its foreign keys, every stored reminder is found and returned with its occurrence; nothing changes |
| Commands.ReminderHasOccurrence | daemon.py:341-343 | in a store that keeps its foreign keys, `occurrence_not_found` never happens |
| Commands.HandleAck | daemon.py:371-384 | a missing or malformed id is rejected before any change, and an id beyond 64 bits raises before any change; otherwise the reminder is acked and `changed` says whether it was unacked |
| Commands.HandleDrop | daemon.py:386-406 | a missing event id or non-integer start is rejected before any change, and a start beyond 64 bits raises before any change; otherwise the occurrence is dropped, and the reply is the per-table cancel counts, or an exception after the write when the start lies outside years 1–9999 in UTC or local time |
| Commands.Snooze | daemon.py:427-435 | a new pending custom reminder is added for the source's occurrence, with ack required, the new trigger and `created_utc = now`; the source is acked if it was not; nothing else changes |
| Commands.HandleSnooze | daemon.py:408-445 | argument checks in the source's order (`missing_id`, `missing_trigger_utc`, `trigger_in_past`, `invalid_reminder_id`, `reminder_not_found`) leave the state alone; an id or a trigger beyond 64 bits raises before any write; when every check passes, `Snooze` is performed and the reply is the new custom id, or an exception after the write when the trigger lies outside years 1–9999 in UTC or local time |
| Commands.SnoozedReminderComesDue | daemon.py:427-435 | the snoozed copy is listed as due exactly from its new trigger on |
| Commands.HandleTest | daemon.py:447-455 | the daemon syncs first when it never has, so `last_sync_utc` is then the first clock reading; the schema invariant and the settings are kept |
| Commands.StartTestSyncs | daemon.py:447-451 | on a freshly started daemon, whose `last_sync_utc` is zero, `test` syncs first, so `last_sync_utc` becomes the first clock reading; the default throttle stays |
| Commands.TestFire | daemon.py:452-455 | firing leaves the schema invariant and everything but the store and `last_spawn_utc` alone |
| Commands.TestIdleReply | daemon.py:452-455 | `no_reminders` exactly when nothing is due at the first reading and nothing triggers after the second, and then the state is the synced one |
| Commands.TestFiredReply | daemon.py:452-455 | a returned id names a reminder that was due or upcoming and is now marked fired at that reading |
| Commands.Handle | daemon.py:280-457 | the schema invariant is kept by every command; every `ok: false` reply of a command other than `test` leaves the daemon state as it was; anything that is not a known command answers `unknown_cmd` and changes nothing |
| Facts.UpsertTwice | db.py:122-164 | repeating an upsert reports neither insert nor change and writes nothing new |
| Facts.EnsureRefreshesFiredRow | db.py:214-244 | a fired but open rule row is refreshed and reported as true, and its `fired_utc` is kept |
| Facts.EnsureTwice | db.py:214-244 | repeating `ensure_rule_reminder` with the same arguments writes nothing new |
| Facts.AckTwice | db.py:532-551 | a second acknowledgement reports false and writes nothing |
| Facts.AckIgnoresCancellation | db.py:532-551 | a cancelled, unacked reminder is still acked |
| Facts.DropClosesOccurrence | db.py:299-320 | after a drop every reminder of the occurrence is acked or cancelled, open ones are cancelled at `now`, and reminders of other occurrences are untouched |
| Facts.DropTwice | db.py:299-320 | a second drop cancels nothing and writes nothing |
| Facts.UnseenCancelSparesFired | db.py:562-575 | the unseen sweep never touches a rule row that has fired |

## Left out

- The socket server, the `run` loop and its scheduler tick, the JSON framing, and the `invalid_json` and `invalid_request` replies are I/O around the handler.
- `ping` reports the process id, which is an operating-system value; the model returns only the clock reading.
- The calendar client, OAuth and the event cache are outside the model. `get_event` and the event summary and link in `get_reminder` are outside it too. Events arrive as a parameter.
- Logging, `commit`, sound playback and the terminal spawn are left out. A spawn is a success flag.
- Python `datetime` is modelled as integer wall seconds plus an optional fixed offset. Sub-second parts, zones whose offset changes (DST), and the `datetime` range limits are left out, except where `drop_occurrence` and `snooze` format a request's instant (`Commands.FitsDatetime`). The source's `local_tz()` yields a fixed offset.
- `ReminderRef.parse` and `int()`: Unicode decimal digits other than ASCII are not accepted, and Python's limit on digit-string length is left out.
- Integers that reach SQLite are modelled as raising beyond the signed 64-bit range where a request supplies them (ids, `limit`, `occ_start_utc`, `trigger_utc`). Clock readings and calendar instants are assumed to fit, and are not checked.
- JSON floats are left out. `int()` of a float and `isinstance(x, int)` for floats are not modelled.
- Comparing naive with aware start times when sorting `next`'s events would raise in Python. The calendar client always yields aware values, so the model sorts by UTC instant.
- The order among reminders with equal `trigger_utc` is unspecified in SQL. The model fixes one order, and no stated property depends on it.
- SQLite enforces the foreign keys at insert time. The model states them as the invariant `Store.Valid`, and the two inserts require the occurrence to exist. The sync pass inserts only after an upsert of that occurrence; `snooze` inserts for the occurrence of an existing reminder, which the invariant guarantees is stored (`Store.ReminderHasOccurrenceRow`).
- Commands.Handle: its contract states only the invariant, that error replies other than `test`'s change nothing, and `unknown_cmd`; each command's behaviour is stated on the `Handle…` member it dispatches to.
- Commands.HandleTest: states only the sync, the invariant and the settings; what `test` replies is stated on `Commands.TestFire` by `Commands.TestIdleReply` and `Commands.TestFiredReply`, and which reminder is the earliest by `Daemon.FireOneAnyFallsBack`.
- Daemon.FireOneDue: after marking a reminder fired and committing, the source logs its trigger and occurrence start in local time. A stored instant outside years 1–9999, which only a snooze that then raised can have stored, makes that log raise before the spawn, with the same effect as a failed spawn. The model reports the spawn outcome, because the firing functions take no local zone.
- Commands.HandleGetReminder: the reply's presentation fields (local ISO times, summary, link) are left out; the reply carries the stored rows. Formatting the local times raises for a stored instant outside years 1–9999, which only a snooze that then raised can have stored; the model answers with the rows there.

=== FILE: base.dfy ===
/** Values shared by every module of the model. */
module Base {

  /** A nullable value: `None` models SQL NULL and Python `None`. */
  datatype Option<+T> = None | Some(value: T) {

    /** The wrapped value, or `default` when there is none. */
    function GetOr(default: T): T {
      match this
      case Some(v) => v
      case None => default
    }
  }
}

=== FILE: commands.dfy ===
/**
 * The daemon's request handler `_handle_request`: one decoded JSON request
 * in, one response out, with the store mutations each command performs.
 */
module Commands {
  import opened Base
  import opened PyText
  import opened Refs
  import opened Tables
  import opened Store
  import opened Ordering
  import opened Due
  import opened Rules
  import opened Reconcile
  import opened Daemon

  /** A decoded JSON value; JSON numbers are taken to be integers. */
  datatype Json =
    | JNull
    | JBool(b: bool)
    | JInt(i: int)
    | JStr(s: string)
    | JList(items: seq<Json>)
    | JObject(fields: map<string, Json>)

  type Request = map<string, Json>

  function Get(req: Request, key: string): Option<Json> {
    if key in req then Some(req[key]) else None
  }

  /** Python's `int(x)` on a decoded JSON value; `None` where it raises. */
  function PyInt(j: Json): Option<int> {
    match j
    case JInt(i) => Some(i)
    case JBool(b) => Some(if b then 1 else 0)
    case JStr(s) => ParseInt(s)
    case _ => None
  }

  /** `int(req.get(key, default))`. */
  function IntArg(req: Request, key: string, default: int): Option<int> {
    match Get(req, key)
    case None => Some(default)
    case Some(j) => PyInt(j)
  }

  /** `isinstance(x, str) and x`: a non-empty string argument. */
  function StringArg(req: Request, key: string): Option<string> {
    match Get(req, key)
    case Some(JStr(s)) => if |s| > 0 then Some(s) else None
    case _ => None
  }

  /** `isinstance(x, int)`, which a JSON boolean also passes. */
  function IntegerArg(req: Request, key: string): Option<int> {
    match Get(req, key)
    case Some(JInt(i)) => Some(i)
    case Some(JBool(b)) => Some(if b then 1 else 0)
    case _ => None
  }

  /** Python truthiness. */
  predicate Truthy(j: Json) {
    match j
    case JNull => false
    case JBool(b) => b
    case JInt(i) => i != 0
    case JStr(s) => |s| > 0
    case JList(xs) => |xs| > 0
    case JObject(m) => |m| > 0
  }

  /** `bool(req.get(key, False))`. */
  predicate Flag(req: Request, key: string) {
    Get(req, key).Some? && Truthy(Get(req, key).value)
  }

  /**
   * The `ok: true` payloads; presentation-only fields are left out. A reminder
   * id in a reply is the reference's `to_external_id` text, which
   * `Refs.ParseRoundTrip` shows the client can parse back.
   */
  datatype Payload =
    | Pong(now: int)
    | Synced
    | Upcoming(events: seq<Event>)
    | Reminders(items: seq<Listed>)
    | FiredId(ref: Ref)
    | Detail(reminder: Listed, occurrence: OccurrenceRow)
    | Acked(changed: bool)
    | Dropped(cancelledRule: nat, cancelledCustom: nat)
    | Snoozed(newRef: Ref)

  /** An `ok: true` reply, an `ok: false` reply with its error code, or an exception out of the handler. */
  datatype Response = Ok(payload: Payload) | Error(code: string) | Raised

  /**
   * What the handler takes from outside the store: the calendar's current
   * events, the local zone's offset, the successive readings of the UTC
   * clock, and whether spawning the presenter succeeds.
   */
  datatype Env = Env(events: seq<Event>, localOffset: int, clock: nat -> int, spawnOk: bool)

  datatype Handled = Handled(state: DaemonState, response: Response)

  /** 0001-01-01T00:00:00Z and 9999-12-31T23:59:59Z, the ends of Python's `datetime` range, in epoch seconds. */
  const MinInstant := -62135596800
  const MaxInstant := 253402300799

  /**
   * `_utc_to_local_iso` succeeds: the instant and its local wall clock both
   * fall in years 1 to 9999 (otherwise `fromtimestamp` or `astimezone` raises).
   */
  predicate FitsDatetime(t: int, localOffset: int) {
    MinInstant <= t <= MaxInstant && MinInstant <= t + localOffset <= MaxInstant
  }

  /** The reply to a fire attempt: the fired reminder's external id, an error code, or the presenter's exception. */
  function FireReply(f: FireOutcome, none: string): (r: Response)
    ensures r == Error(none) <==> f.Idle?
    ensures r.Ok? <==> f.Spawned?
    ensures r.Ok? ==> r.payload == FiredId(f.ref)
  {
    match f
    case Idle => Error(none)
    case Spawned(ref, _) =>
      Ok(FiredId(ref))
    case SpawnFailed(_, _) => Raised
  }

  lemma {:induction false} IdentifiedKeepsOrder(xs: seq<Event>, key: Event -> int)
    requires SortedBy(xs, key)
    ensures SortedBy(Identified(xs), key)
  {
    if |xs| > 0 {
      IdentifiedKeepsOrder(xs[1..], key);
      var rest := Identified(xs[1..]);
      forall j | 0 <= j < |rest| ensures key(xs[0]) <= key(rest[j]) {
        assert rest[j] in xs[1..];
        var k :| 0 <= k < |xs[1..]| && xs[1..][k] == rest[j];
        assert xs[k + 1] == rest[j];
      }
    }
  }

  function StartKey(localOffset: int): Event -> int {
    (e: Event) => ToUtc(e.start, localOffset)
  }

  /**
   * The `next` listing: the events with an id, ordered by start instant,
   * at most `limit` of them; every identified event appears when fewer than
   * `limit` are listed, and one left out starts no earlier than any listed.
   */
  predicate ListsNext(events: seq<Event>, localOffset: int, limit: int, out: seq<Event>) {
    && |out| <= limit
    && SortedBy(out, StartKey(localOffset))
    && (forall e :: e in out ==> e in events && HasId(e))
    && (|out| < limit ==> forall e :: e in events && HasId(e) ==> e in out)
    && (forall e :: e in events && HasId(e) && e !in out ==>
          && |out| == limit
          && forall y :: y in out ==> ToUtc(y.start, localOffset) <= ToUtc(e.start, localOffset))
  }

  lemma NextListing(events: seq<Event>, localOffset: int, limit: int)
    requires limit >= 1
    ensures ListsNext(events, localOffset, limit,
                      Limit(Identified(SortBy(events, StartKey(localOffset))), limit))
  {
    var key := StartKey(localOffset);
    var sorted := SortBy(events, key);
    var all := Identified(sorted);
    var out := Limit(all, limit);
    IdentifiedKeepsOrder(sorted, key);
    forall e | e in out ensures e in events && HasId(e) {
      assert e in all;
      assert e in multiset(sorted);
    }
    forall e | e in events && HasId(e) ensures e in all {
      assert e in multiset(events);
      assert e in sorted;
    }
    forall e | e in events && HasId(e) && e !in out
      ensures |out| == limit
      ensures forall y :: y in out ==> ToUtc(y.start, localOffset) <= ToUtc(e.start, localOffset)
    {
      LimitKeepsEarliest(all, limit, e, key);
    }
  }

  /** `next`: the refreshed calendar events, listed as `ListsNext` says. */
  function HandleNext(st: DaemonState, req: Request, env: Env): (r: Handled)
    ensures r.state == st
    ensures IntArg(req, "limit", 5).None? <==> r.response == Raised
    ensures r.response == Error("limit_must_be_positive") <==> IntArg(req, "limit", 5).Some? && IntArg(req, "limit", 5).value < 1
    ensures r.response.Ok? <==> IntArg(req, "limit", 5).Some? && IntArg(req, "limit", 5).value >= 1
    ensures r.response.Ok? ==>
      r.response.payload.Upcoming? &&
      ListsNext(env.events, env.localOffset, IntArg(req, "limit", 5).value, r.response.payload.events)
  {
    match IntArg(req, "limit", 5)
    case None => Handled(st, Raised)
    case Some(limit) =>
      if limit < 1 then Handled(st, Error("limit_must_be_positive"))
      else
        NextListing(env.events, env.localOffset, limit);
        Handled(st, Ok(Upcoming(Limit(Identified(SortBy(env.events, StartKey(env.localOffset))), limit))))
  }

  /**
   * `due`: the due reminders at the handler's clock reading, at most `limit`.
   * The limit is written into the SQL text, and SQLite rejects a `LIMIT`
   * beyond the 64-bit range, so such a limit raises.
   */
  function HandleDue(st: DaemonState, req: Request, env: Env): (r: Handled)
    ensures r.state == st
    ensures r.response == Raised <==>
      IntArg(req, "limit", 10).None? || (IntArg(req, "limit", 10).value >= 1 && !FitsInt64(IntArg(req, "limit", 10).value))
    ensures r.response == Error("limit_must_be_positive") <==> IntArg(req, "limit", 10).Some? && IntArg(req, "limit", 10).value < 1
    ensures r.response.Ok? <==>
      IntArg(req, "limit", 10).Some? && IntArg(req, "limit", 10).value >= 1 && FitsInt64(IntArg(req, "limit", 10).value)
    ensures r.response.Ok? ==> r.response.payload.Reminders?
    ensures r.response.Ok? && r.response.payload.Reminders? ==>
      var items := r.response.payload.items;
      |items| <= IntArg(req, "limit", 10).value
      && (forall x :: x in items ==>
            GetReminder(st.store, x.ref) == Some(x) && Pending(x.row) && x.row.trigger <= env.clock(0))
      && SortedBy(items, TriggerOf)
      && forall ref :: Left(st.store, ref, DueRow(env.clock(0)), items) ==>
           && |items| == IntArg(req, "limit", 10).value
           && forall y :: y in items ==> y.row.trigger <= GetReminder(st.store, ref).value.row.trigger
  {
    match IntArg(req, "limit", 10)
    case None => Handled(st, Raised)
    case Some(limit) =>
      if limit < 1 then Handled(st, Error("limit_must_be_positive"))
      else if !FitsInt64(limit) then Handled(st, Raised)
      else Handled(st, Ok(Reminders(ListDueReminders(st.store, env.clock(0), limit))))
  }

  /** `ref` was the earliest due reminder of `before` at `now`, and `after` is `before` with it marked fired. */
  ghost predicate FiredEarliestDue(before: Store, after: Store, ref: Ref, now: int) {
    && IsDue(before, ref, now)
    && (forall other :: IsDue(before, other, now) ==> TriggerAt(before, ref) <= TriggerAt(before, other))
    && after == MarkFired(before, ref, now)
  }

  /** `fire_next`: fires the earliest due reminder, throttle ignored. */
  function HandleFireNext(st: DaemonState, env: Env): (r: Handled)
    ensures Valid(st.store) ==> Valid(r.state.store)
    ensures r.state == st.(store := r.state.store, lastSpawn := r.state.lastSpawn)
    ensures r.response == Error("no_due_reminders") <==> forall ref :: !IsDue(st.store, ref, env.clock(0))
    ensures r.response.Error? ==> r.state == st
    ensures r.response.Ok? ==>
      && r.response.payload.FiredId?
      && FiredEarliestDue(st.store, r.state.store, r.response.payload.ref, env.clock(0))
      && r.state.lastSpawn == env.clock(0)
    ensures r.response == Raised ==>
      && r.state.lastSpawn == st.lastSpawn
      && exists ref :: FiredEarliestDue(st.store, r.state.store, ref, env.clock(0))
  {
    var f := FireOneDue(st, env.clock(0), false, true, env.spawnOk);
    if f.outcome.Idle? then Handled(f.state, Error("no_due_reminders"))
    else
      assert FiredEarliestDue(st.store, f.state.store, f.outcome.ref, env.clock(0));
      Handled(f.state, FireReply(f.outcome, "no_due_reminders"))
  }

  /**
   * `get_reminder`: the reminder and its occurrence, after the id checks. An
   * id outside the 64-bit range raises when it is bound to the lookup.
   */
  function HandleGetReminder(st: DaemonState, req: Request): (r: Handled)
    ensures r.state == st
    ensures StringArg(req, "id").None? <==> r.response == Error("missing_id")
    ensures r.response == Error("invalid_reminder_id") <==>
      StringArg(req, "id").Some? && Parse(StringArg(req, "id").value).None?
    ensures r.response == Raised <==>
      && StringArg(req, "id").Some? && Parse(StringArg(req, "id").value).Some?
      && !FitsInt64(Parse(StringArg(req, "id").value).value.id)
    ensures r.response == Error("reminder_not_found") <==>
      && StringArg(req, "id").Some? && Parse(StringArg(req, "id").value).Some?
      && FitsInt64(Parse(StringArg(req, "id").value).value.id)
      && GetReminder(st.store, Parse(StringArg(req, "id").value).value).None?
    ensures Valid(st.store) && StringArg(req, "id").Some? && Parse(StringArg(req, "id").value).Some? ==>
      var ref := Parse(StringArg(req, "id").value).value;
      FitsInt64(ref.id) && GetReminder(st.store, ref).Some? ==> r.response.Ok?
    ensures r.response.Ok? ==>
      && StringArg(req, "id").Some? && Parse(StringArg(req, "id").value).Some?
      && r.response.payload.Detail?
      && var x := r.response.payload.reminder;
         && GetReminder(st.store, Parse(StringArg(req, "id").value).value) == Some(x)
         && GetOccurrence(st.store, x.row.eventId, x.row.occStart) == Some(r.response.payload.occurrence)
  {
    match StringArg(req, "id")
    case None => Handled(st, Error("missing_id"))
    case Some(rid) =>
      match Parse(rid)
      case None => Handled(st, Error("invalid_reminder_id"))
      case Some(ref) =>
        if !FitsInt64(ref.id) then Handled(st, Raised)
        else match GetReminder(st.store, ref)
        case None => Handled(st, Error("reminder_not_found"))
        case Some(x) =>
          match GetOccurrence(st.store, x.row.eventId, x.row.occStart)
          case None => Handled(st, Error("occurrence_not_found"))
          case Some(o) => Handled(st, Ok(Detail(x, o)))
  }

  /** `ack_reminder`: acknowledges a well-formed id; `changed` says whether a row was updated. */
  function HandleAck(st: DaemonState, req: Request, env: Env): (r: Handled)
    ensures Valid(st.store) ==> Valid(r.state.store)
    ensures StringArg(req, "id").None? ==> r == Handled(st, Error("missing_id"))
    ensures StringArg(req, "id").Some? && Parse(StringArg(req, "id").value).None? ==>
      r == Handled(st, Error("invalid_reminder_id"))
    ensures (&& StringArg(req, "id").Some? && Parse(StringArg(req, "id").value).Some?
             && !FitsInt64(Parse(StringArg(req, "id").value).value.id)) ==> r == Handled(st, Raised)
    ensures (&& StringArg(req, "id").Some? && Parse(StringArg(req, "id").value).Some?
             && FitsInt64(Parse(StringArg(req, "id").value).value.id)) ==>
      var ref := Parse(StringArg(req, "id").value).value;
      var before := GetReminder(st.store, ref);
      && r.response == Ok(Acked(before.Some? && before.value.row.acked.None?))
      && r.state == st.(store := AckReminder(st.store, ref, env.clock(0)).store)
  {
    match StringArg(req, "id")
    case None => Handled(st, Error("missing_id"))
    case Some(rid) =>
      match Parse(rid)
      case None => Handled(st, Error("invalid_reminder_id"))
      case Some(ref) =>
        if !FitsInt64(ref.id) then Handled(st, Raised)
        else
        var a := AckReminder(st.store, ref, env.clock(0));
        Handled(st.(store := a.store), Ok(Acked(a.out)))
  }

  /**
   * `drop_occurrence`: marks the occurrence dropped and reports the cancelled
   * counts per table. The change is committed before the start is logged in
   * local time, so a start outside the `datetime` range raises after the write.
   */
  function HandleDrop(st: DaemonState, req: Request, env: Env): (r: Handled)
    ensures Valid(st.store) ==> Valid(r.state.store)
    ensures StringArg(req, "event_id").None? ==> r == Handled(st, Error("missing_event_id"))
    ensures StringArg(req, "event_id").Some? && IntegerArg(req, "occ_start_utc").None? ==>
      r == Handled(st, Error("missing_occ_start_utc"))
    ensures (&& StringArg(req, "event_id").Some? && IntegerArg(req, "occ_start_utc").Some?
             && !FitsInt64(IntegerArg(req, "occ_start_utc").value)) ==> r == Handled(st, Raised)
    ensures (&& StringArg(req, "event_id").Some? && IntegerArg(req, "occ_start_utc").Some?
             && FitsInt64(IntegerArg(req, "occ_start_utc").value)) ==>
      var d := DropOccurrence(st.store, StringArg(req, "event_id").value, IntegerArg(req, "occ_start_utc").value, env.clock(0));
      && r.state == st.(store := d.store)
      && r.response == if FitsDatetime(IntegerArg(req, "occ_start_utc").value, env.localOffset)
                       then Ok(Dropped(Differing(st.store.rules, d.store.rules), Differing(st.store.customs, d.store.customs)))
                       else Raised
  {
    match StringArg(req, "event_id")
    case None => Handled(st, Error("missing_event_id"))
    case Some(eventId) =>
      match IntegerArg(req, "occ_start_utc")
      case None => Handled(st, Error("missing_occ_start_utc"))
      case Some(occStart) =>
        if !FitsInt64(occStart) then Handled(st, Raised)
        else
        var d := DropOccurrence(st.store, eventId, occStart, env.clock(0));
        if !FitsDatetime(occStart, env.localOffset) then Handled(st.(store := d.store), Raised)
        else Handled(st.(store := d.store), Ok(Dropped(d.out.0, d.out.1)))
  }

  /**
   * The store side of `snooze`: a new pending custom reminder for the source
   * reminder's occurrence, acknowledgement required, then the source acked.
   */
  function Snooze(s: Store, ref: Ref, trigger: int, now: int): (r: Step<int>)
    requires Valid(s) && GetReminder(s, ref).Some?
    ensures var src := GetReminder(s, ref).value.row;
      var added := Ref(Custom, r.out);
      && GetReminder(s, added).None?
      && GetReminder(r.store, added)
         == Some(Listed(added, Row(src.eventId, src.occStart, None, trigger, 1, now, None, None, None)))
      && GetReminder(r.store, ref)
         == Some(Listed(ref, if src.acked.None? then src.(acked := Some(now)) else src))
    ensures forall other :: other != ref && other != Ref(Custom, r.out) ==>
      GetReminder(r.store, other) == GetReminder(s, other)
    ensures r.store.occurrences == s.occurrences
    ensures Valid(r.store)
  {
    var src := GetReminder(s, ref).value.row;
    ReminderHasOccurrenceRow(s, ref);
    var ins := InsertCustomReminder(s, src.eventId, src.occStart, trigger, 1, now);
    var ack := AckReminder(ins.store, ref, now);
    Step(ack.store, ins.out)
  }

  /** Every check of `snooze` passes and both values fit the 64-bit range, so the store is written. */
  predicate SnoozeWrites(st: DaemonState, req: Request, env: Env) {
    && StringArg(req, "id").Some? && IntegerArg(req, "trigger_utc").Some?
    && IntegerArg(req, "trigger_utc").value > env.clock(0)
    && FitsInt64(IntegerArg(req, "trigger_utc").value)
    && Parse(StringArg(req, "id").value).Some?
    && FitsInt64(Parse(StringArg(req, "id").value).value.id)
    && GetReminder(st.store, Parse(StringArg(req, "id").value).value).Some?
  }

  /**
   * `snooze`: argument checks, then `Snooze`; replies with the new reminder's
   * external id. An id or trigger outside the 64-bit range raises where it is
   * first bound to a statement, before anything is written. The snooze is
   * committed before the new trigger is logged in local time, so a trigger
   * outside the `datetime` range raises after the write.
   */
  function HandleSnooze(st: DaemonState, req: Request, env: Env): (r: Handled)
    requires Valid(st.store)
    ensures Valid(r.state.store)
    ensures !SnoozeWrites(st, req, env) ==> r.state == st
    ensures StringArg(req, "id").None? ==> r.response == Error("missing_id")
    ensures StringArg(req, "id").Some? && IntegerArg(req, "trigger_utc").None? ==>
      r.response == Error("missing_trigger_utc")
    ensures (StringArg(req, "id").Some? && IntegerArg(req, "trigger_utc").Some? &&
             IntegerArg(req, "trigger_utc").value <= env.clock(0)) ==> r.response == Error("trigger_in_past")
    ensures r.response == Raised <==>
      || (&& StringArg(req, "id").Some? && IntegerArg(req, "trigger_utc").Some?
          && IntegerArg(req, "trigger_utc").value > env.clock(0)
          && Parse(StringArg(req, "id").value).Some?
          && var ref := Parse(StringArg(req, "id").value).value;
             !FitsInt64(ref.id) || (GetReminder(st.store, ref).Some? && !FitsInt64(IntegerArg(req, "trigger_utc").value)))
      || (SnoozeWrites(st, req, env) && !FitsDatetime(IntegerArg(req, "trigger_utc").value, env.localOffset))
    ensures r.response.Ok? <==> SnoozeWrites(st, req, env) && FitsDatetime(IntegerArg(req, "trigger_utc").value, env.localOffset)
    ensures SnoozeWrites(st, req, env) ==>
      var sn := Snooze(st.store, Parse(StringArg(req, "id").value).value, IntegerArg(req, "trigger_utc").value, env.clock(0));
      && r.state == st.(store := sn.store)
      && r.response == if FitsDatetime(IntegerArg(req, "trigger_utc").value, env.localOffset)
                       then Ok(Snoozed(Ref(Custom, sn.out)))
                       else Raised
  {
    match StringArg(req, "id")
    case None => Handled(st, Error("missing_id"))
    case Some(rid) =>
      match IntegerArg(req, "trigger_utc")
      case None => Handled(st, Error("missing_trigger_utc"))
      case Some(trigger) =>
        var now := env.clock(0);
        if trigger <= now then Handled(st, Error("trigger_in_past"))
        else
          match Parse(rid)
          case None => Handled(st, Error("invalid_reminder_id"))
          case Some(ref) =>
            if !FitsInt64(ref.id) then Handled(st, Raised)
            else if GetReminder(st.store, ref).None? then Handled(st, Error("reminder_not_found"))
            else if !FitsInt64(trigger) then Handled(st, Raised)
            else
              var sn := Snooze(st.store, ref, trigger, now);
              if !FitsDatetime(trigger, env.localOffset) then Handled(st.(store := sn.store), Raised)
              else Handled(st.(store := sn.store), Ok(Snoozed(Ref(Custom, sn.out))))
  }

  /** The daemon state `test` fires from: synced first when it never has been. */
  function TestSynced(st: DaemonState, env: Env): (r: DaemonState)
    ensures Valid(st.store) ==> Valid(r.store)
  {
    if st.lastSync == 0 then Sync(st, env.events, env.clock(0), env.localOffset).0 else st
  }

  /** Which clock reading `test` fires at: the first one goes to the sync when there is one. */
  function TestReading(st: DaemonState): nat {
    if st.lastSync == 0 then 1 else 0
  }

  ghost predicate NothingPending(s: Store, now: int, later: int) {
    (forall ref :: !IsDue(s, ref, now)) && (forall ref :: !IsUpcoming(s, ref, later))
  }

  /** `after` is `before` with `ref` marked fired, where `ref` was due at `now` or upcoming after `later`. */
  ghost predicate FiredFrom(before: Store, after: Store, ref: Ref, now: int, later: int) {
    || (IsDue(before, ref, now) && after == MarkFired(before, ref, now))
    || (IsUpcoming(before, ref, later) && after == MarkFired(before, ref, later))
  }

  /**
   * `test`: syncs first when the daemon has never synced, then fires the
   * earliest due reminder or else the next upcoming one.
   */
  function HandleTest(st: DaemonState, req: Request, env: Env): (r: Handled)
    ensures Valid(st.store) ==> Valid(r.state.store)
    ensures r.state.syncInterval == st.syncInterval && r.state.spawnThrottle == st.spawnThrottle
    ensures r.state.lastSync == if st.lastSync == 0 then env.clock(0) else st.lastSync
  {
    TestFire(TestSynced(st, env), env.clock(TestReading(st)), env.clock(TestReading(st) + 1),
             Flag(req, "important"), env.spawnOk)
  }

  /** On a freshly started daemon, `test` syncs before it fires, at its first clock reading. */
  lemma StartTestSyncs(store: Store, req: Request, env: Env)
    ensures var r := HandleTest(Start(store), req, env);
      r.state.lastSync == env.clock(0) && r.state.spawnThrottle == Start(store).spawnThrottle
  {
  }

  /** The firing half of `test`, on the synced state at its two clock readings. */
  function TestFire(synced: DaemonState, now: int, later: int, important: bool, spawnOk: bool): (r: Handled)
    ensures Valid(synced.store) ==> Valid(r.state.store)
    ensures r.state == synced.(store := r.state.store, lastSpawn := r.state.lastSpawn)
  {
    var f := FireOneAny(synced, now, later, important, spawnOk);
    FireOneAnyFires(synced, now, later, important, spawnOk);
    Handled(f.state, FireReply(f.outcome, "no_reminders"))
  }

  /**
   * `test` answers `no_reminders`, leaving the synced state as it is, exactly
   * when nothing is due at its first clock reading and nothing triggers after
   * its second.
   */
  lemma TestIdleReply(synced: DaemonState, now: int, later: int, important: bool, spawnOk: bool)
    ensures var r := TestFire(synced, now, later, important, spawnOk);
      && (r.response == Error("no_reminders") <==> NothingPending(synced.store, now, later))
      && (r.response.Error? ==> r.state == synced)
  {
    FireOneAnyIdle(synced, now, later, important, spawnOk);
  }

  /** A reminder `test` reports was due at its first clock reading or upcoming after its second, and is now marked fired. */
  lemma TestFiredReply(synced: DaemonState, now: int, later: int, important: bool, spawnOk: bool)
    ensures var r := TestFire(synced, now, later, important, spawnOk);
      r.response.Ok? ==>
        && r.response.payload.FiredId?
        && FiredFrom(synced.store, r.state.store, r.response.payload.ref, now, later)
  {
    FireOneAnyFires(synced, now, later, important, spawnOk);
  }

  const CommandNames: set<string> :=
    {"ping", "sync", "next", "due", "fire_next", "get_reminder", "ack_reminder", "drop_occurrence", "snooze", "test"}

  predicate IsCommand(req: Request, name: string) {
    Get(req, "cmd") == Some(JStr(name))
  }

  /** `_handle_request`: dispatch on `cmd`; anything else is `unknown_cmd`. */
  function Handle(st: DaemonState, req: Request, env: Env): (r: Handled)
    requires Valid(st.store)
    ensures Valid(r.state.store)
    ensures (forall c :: c in CommandNames ==> !IsCommand(req, c)) ==> r == Handled(st, Error("unknown_cmd"))
    ensures r.response.Error? && !IsCommand(req, "test") ==> r.state == st
    ensures r.state.syncInterval == st.syncInterval && r.state.spawnThrottle == st.spawnThrottle
  {
    if IsCommand(req, "ping") then Handled(st, Ok(Pong(env.clock(0))))
    else if IsCommand(req, "sync") then Handled(Sync(st, env.events, env.clock(0), env.localOffset).0, Ok(Synced))
    else if IsCommand(req, "next") then HandleNext(st, req, env)
    else if IsCommand(req, "due") then HandleDue(st, req, env)
    else if IsCommand(req, "fire_next") then HandleFireNext(st, env)
    else if IsCommand(req, "get_reminder") then HandleGetReminder(st, req)
    else if IsCommand(req, "ack_reminder") then HandleAck(st, req, env)
    else if IsCommand(req, "drop_occurrence") then HandleDrop(st, req, env)
    else if IsCommand(req, "snooze") then HandleSnooze(st, req, env)
    else if IsCommand(req, "test") then HandleTest(st, req, env)
    else Handled(st, Error("unknown_cmd"))
  }

  /** In a store that keeps its foreign keys, `get_reminder` never answers `occurrence_not_found`. */
  lemma ReminderHasOccurrence(st: DaemonState, req: Request)
    requires Valid(st.store)
    ensures HandleGetReminder(st, req).response != Error("occurrence_not_found")
  {
    if StringArg(req, "id").Some? && Parse(StringArg(req, "id").value).Some? {
      var ref := Parse(StringArg(req, "id").value).value;
      if GetReminder(st.store, ref).Some? {
        ReminderHasOccurrenceRow(st.store, ref);
      }
    }
  }

  /** The reminder a snooze creates is listed as due exactly from its trigger on. */
  lemma SnoozedReminderComesDue(s: Store, ref: Ref, trigger: int, now: int, t: int)
    requires Valid(s) && GetReminder(s, ref).Some?
    ensures var sn := Snooze(s, ref, trigger, now);
      (exists x :: x in ListDueReminders(sn.store, t, -1) && x.ref == Ref(Custom, sn.out)) <==> trigger <= t
  {
    var sn := Snooze(s, ref, trigger, now);
    var added := Ref(Custom, sn.out);
    var due := ListDueReminders(sn.store, t, -1);
    if trigger <= t {
      var x := GetReminder(sn.store, added).value;
      if x !in due {
        assert Left(sn.store, added, DueRow(t), due);
      }
      assert x in due && x.ref == added;
    }
  }
}

=== FILE: coverage.dfy ===
/**
 * Completeness of a sync pass: every rule spec of a seen, undropped
 * occurrence whose trigger is still ahead ends up with its rule reminder.
 */
module Coverage {
  import opened Tables
  import opened Store
  import opened Rules
  import opened Reconcile

  /**
   * The rule row for `(key, name)` exists, and it is either closed (acked or
   * cancelled, so never refreshed) or carries trigger `trig` and ack
   * requirement `ack`.
   */
  predicate Covers(rules: seq<Row>, key: OccKey, name: string, trig: int, ack: int) {
    exists i :: 0 <= i < |rules| && HasRuleKey(rules[i], key.eventId, key.start, name) &&
      (Terminal(rules[i]) || (rules[i].trigger == trig && rules[i].requiresAck == ack))
  }

  /** A fully pending rule row for `(key, name)` with trigger `trig` and ack requirement `ack`. */
  predicate HasPendingRule(rules: seq<Row>, key: OccKey, name: string, trig: int, ack: int) {
    exists i :: 0 <= i < |rules| && HasRuleKey(rules[i], key.eventId, key.start, name) &&
      Pending(rules[i]) && rules[i].trigger == trig && rules[i].requiresAck == ack
  }

  predicate DistinctNames(specs: seq<RuleSpec>) {
    forall i, j :: 0 <= i < j < |specs| ==> specs[i].ruleName != specs[j].ruleName
  }

  /** One row matches two rule keys only when the keys are equal. */
  lemma RuleKeyDetermined(r: Row, key: OccKey, name: string, key2: OccKey, name2: string)
    requires HasRuleKey(r, key.eventId, key.start, name) && HasRuleKey(r, key2.eventId, key2.start, name2)
    ensures key == key2 && name == name2
  {
  }

  lemma EnsureCovers(s: Store, key: OccKey, name: string, trig: int, ack: int, created: int)
    requires Valid(s) && key in s.occurrences
    ensures Covers(EnsureRuleReminder(s, key.eventId, key.start, name, trig, ack, created).store.rules, key, name, trig, ack)
  {
    var e := EnsureRuleReminder(s, key.eventId, key.start, name, trig, ack, created);
    match FindRuleRow(s.rules, key.eventId, key.start, name)
    case None =>
      assert e.store.rules[|s.rules|].trigger == trig;
      assert HasRuleKey(e.store.rules[|s.rules|], key.eventId, key.start, name);
    case Some(k) =>
      assert HasRuleKey(e.store.rules[k], key.eventId, key.start, name);
  }

  /** `ensure_rule_reminder` for one rule key leaves the row of every other rule key as it was. */
  lemma EnsureKeepsCover(
    s: Store, key: OccKey, name: string, trig: int, ack: int, created: int,
    key2: OccKey, name2: string, trig2: int, ack2: int)
    requires Valid(s) && key in s.occurrences
    requires Covers(s.rules, key2, name2, trig2, ack2) && (key2 != key || name2 != name)
    ensures Covers(EnsureRuleReminder(s, key.eventId, key.start, name, trig, ack, created).store.rules, key2, name2, trig2, ack2)
  {
    var e := EnsureRuleReminder(s, key.eventId, key.start, name, trig, ack, created);
    var i :| 0 <= i < |s.rules| && HasRuleKey(s.rules[i], key2.eventId, key2.start, name2) &&
      (Terminal(s.rules[i]) || (s.rules[i].trigger == trig2 && s.rules[i].requiresAck == ack2));
    match FindRuleRow(s.rules, key.eventId, key.start, name)
    case None =>
      assert e.store.rules[i] == s.rules[i];
    case Some(k) =>
      if k == i {
        RuleKeyDetermined(s.rules[i], key, name, key2, name2);
      }
      assert e.store.rules[i] == s.rules[i];
  }

  /** The spec loop for `key` leaves the row of every rule key it does not ensure as it was. */
  lemma {:induction false} EnsureSpecsKeepsCover(
    s: Store, key: OccKey, specs: seq<RuleSpec>, started: int, localOffset: int, stats: SyncStats,
    key2: OccKey, name2: string, trig2: int, ack2: int)
    requires Valid(s) && SeenLive(s, key, started)
    requires Covers(s.rules, key2, name2, trig2, ack2)
    requires key2 != key || forall j :: 0 <= j < |specs| ==> specs[j].ruleName != name2
    ensures Covers(EnsureSpecs(s, key, specs, started, localOffset, stats).store.rules, key2, name2, trig2, ack2)
    decreases |specs|
  {
    if |specs| > 0 {
      var trig := ToUtc(specs[0].trigger, localOffset);
      if trig <= started {
        EnsureSpecsKeepsCover(s, key, specs[1..], started, localOffset, stats.(skippedPast := stats.skippedPast + 1),
                              key2, name2, trig2, ack2);
      } else {
        var e := EnsureRuleReminder(s, key.eventId, key.start, specs[0].ruleName, trig, specs[0].requiresAck, started);
        EnsureEvolves(s, key, specs[0], trig, started);
        EnsureKeepsCover(s, key, specs[0].ruleName, trig, specs[0].requiresAck, started, key2, name2, trig2, ack2);
        EnsureSpecsKeepsCover(e.store, key, specs[1..], started, localOffset,
                              stats.(ruleChanged := stats.ruleChanged + if e.out then 1 else 0), key2, name2, trig2, ack2);
      }
    }
  }

  /** The spec loop leaves every spec with a future trigger covered. */
  lemma {:induction false} EnsureSpecsCovers(
    s: Store, key: OccKey, specs: seq<RuleSpec>, started: int, localOffset: int, stats: SyncStats)
    requires Valid(s) && SeenLive(s, key, started) && DistinctNames(specs)
    ensures var p := EnsureSpecs(s, key, specs, started, localOffset, stats);
      forall j :: 0 <= j < |specs| && ToUtc(specs[j].trigger, localOffset) > started ==>
        Covers(p.store.rules, key, specs[j].ruleName, ToUtc(specs[j].trigger, localOffset), specs[j].requiresAck)
    decreases |specs|
  {
    if |specs| > 0 {
      var p := EnsureSpecs(s, key, specs, started, localOffset, stats);
      var trig := ToUtc(specs[0].trigger, localOffset);
      assert DistinctNames(specs[1..]);
      if trig <= started {
        var stats' := stats.(skippedPast := stats.skippedPast + 1);
        EnsureSpecsCovers(s, key, specs[1..], started, localOffset, stats');
        assert forall j :: 1 <= j < |specs| ==> specs[j] == specs[1..][j - 1];
      } else {
        var e := EnsureRuleReminder(s, key.eventId, key.start, specs[0].ruleName, trig, specs[0].requiresAck, started);
        var stats' := stats.(ruleChanged := stats.ruleChanged + if e.out then 1 else 0);
        assert p == EnsureSpecs(e.store, key, specs[1..], started, localOffset, stats');
        EnsureEvolves(s, key, specs[0], trig, started);
        EnsureCovers(s, key, specs[0].ruleName, trig, specs[0].requiresAck, started);
        EnsureSpecsKeepsCover(e.store, key, specs[1..], started, localOffset, stats',
                              key, specs[0].ruleName, trig, specs[0].requiresAck);
        EnsureSpecsCovers(e.store, key, specs[1..], started, localOffset, stats');
        assert forall j :: 1 <= j < |specs| ==> specs[j] == specs[1..][j - 1];
      }
    }
  }

  lemma SpecNamesDistinct(start: DateTime, end: DateTime, allDay: bool, localOffset: int)
    ensures DistinctNames(ComputeRuleSpecs(start, end, allDay, localOffset))
  {
    var r := ComputeRuleSpecs(start, end, allDay, localOffset);
    assert WeekBefore[0] == 'w' && DayBefore[0] == 'd' && SixAm[0] == 's' && Minus30m[0] == 'm';
    forall i, j | 0 <= i < j < |r| ensures r[i].ruleName != r[j].ruleName {
      assert r[i].ruleName[0] != r[j].ruleName[0];
    }
  }

  /**
   * One event of a sync pass whose occurrence is not dropped: each of its
   * rule specs with a trigger after `started` is covered afterwards.
   */
  lemma SyncEventCovers(s: Store, e: Event, started: int, localOffset: int, stats: SyncStats)
    requires Valid(s) && HasId(e)
    requires EventKey(e, localOffset) !in s.occurrences || s.occurrences[EventKey(e, localOffset)].dropped == 0
    ensures var key := EventKey(e, localOffset);
      var specs := ComputeRuleSpecs(e.start, e.end, e.allDay, localOffset);
      var p := SyncEvent(s, e, started, localOffset, stats);
      forall j :: 0 <= j < |specs| && ToUtc(specs[j].trigger, localOffset) > started ==>
        Covers(p.store.rules, key, specs[j].ruleName, ToUtc(specs[j].trigger, localOffset), specs[j].requiresAck)
  {
    var key := EventKey(e, localOffset);
    var u := UpsertEvent(s, e, started, localOffset);
    SyncEventSplit(s, e, started, localOffset, stats);
    assert u.store.occurrences[key].dropped == 0;
    var specs := ComputeRuleSpecs(e.start, e.end, e.allDay, localOffset);
    SpecNamesDistinct(e.start, e.end, e.allDay, localOffset);
    EnsureSpecsCovers(u.store, key, specs, started, localOffset, Counted(stats, u.out));
  }

  /** Rows that existed before a pass keep their occurrence, so none of them belongs to an occurrence new to it. */
  lemma OldRowsKeepKeys(a: Store, b: Store, started: int, key: OccKey)
    requires Valid(a) && Evolves(a, b, started) && key !in a.occurrences
    ensures forall i :: 0 <= i < |a.rules| ==> KeyOf(b.rules[i]) != key
  {
    forall i | 0 <= i < |a.rules| ensures KeyOf(b.rules[i]) != key {
      assert KeyOf(b.rules[i]) == KeyOf(a.rules[i]);
    }
  }

  /** Every spec in `specs` with a trigger after `started` is covered for `key`. */
  predicate CoversSpecs(rules: seq<Row>, key: OccKey, specs: seq<RuleSpec>, started: int, localOffset: int) {
    forall j :: 0 <= j < |specs| && ToUtc(specs[j].trigger, localOffset) > started ==>
      Covers(rules, key, specs[j].ruleName, ToUtc(specs[j].trigger, localOffset), specs[j].requiresAck)
  }

  /** An event with another occurrence key, or none, leaves the row of every rule key of `key2` as it was. */
  lemma SyncEventKeepsCover(
    s: Store, e: Event, started: int, localOffset: int, stats: SyncStats,
    key2: OccKey, name2: string, trig2: int, ack2: int)
    requires Valid(s) && (HasId(e) ==> EventKey(e, localOffset) != key2)
    requires Covers(s.rules, key2, name2, trig2, ack2)
    ensures Covers(SyncEvent(s, e, started, localOffset, stats).store.rules, key2, name2, trig2, ack2)
  {
    if HasId(e) {
      var key := EventKey(e, localOffset);
      var u := UpsertEvent(s, e, started, localOffset);
      SyncEventSplit(s, e, started, localOffset, stats);
      if u.store.occurrences[key].dropped == 0 {
        var specs := ComputeRuleSpecs(e.start, e.end, e.allDay, localOffset);
        EnsureSpecsKeepsCover(u.store, key, specs, started, localOffset, Counted(stats, u.out), key2, name2, trig2, ack2);
      }
    }
  }

  /**
   * One step of the event loop: `key`'s specs are covered afterwards when
   * they were before or the event has that key and derives them; the
   * occurrence stays undropped.
   */
  lemma SyncEventCoverStep(
    s: Store, e: Event, started: int, localOffset: int, stats: SyncStats, key: OccKey, specs: seq<RuleSpec>)
    requires Valid(s) && (key !in s.occurrences || s.occurrences[key].dropped == 0)
    requires HasId(e) && EventKey(e, localOffset) == key ==> ComputeRuleSpecs(e.start, e.end, e.allDay, localOffset) == specs
    requires CoversSpecs(s.rules, key, specs, started, localOffset) || (HasId(e) && EventKey(e, localOffset) == key)
    ensures var p := SyncEvent(s, e, started, localOffset, stats);
      && Valid(p.store) && (key !in p.store.occurrences || p.store.occurrences[key].dropped == 0)
      && CoversSpecs(p.store.rules, key, specs, started, localOffset)
  {
    var p := SyncEvent(s, e, started, localOffset, stats);
    SyncEventEvolves(s, e, started, localOffset, stats);
    if HasId(e) && EventKey(e, localOffset) == key {
      SyncEventCovers(s, e, started, localOffset, stats);
    } else {
      forall j | 0 <= j < |specs| && ToUtc(specs[j].trigger, localOffset) > started
        ensures Covers(p.store.rules, key, specs[j].ruleName, ToUtc(specs[j].trigger, localOffset), specs[j].requiresAck)
      {
        SyncEventKeepsCover(s, e, started, localOffset, stats,
                            key, specs[j].ruleName, ToUtc(specs[j].trigger, localOffset), specs[j].requiresAck);
      }
    }
  }

  /**
   * The event loop leaves `key`'s specs covered when they already are or some
   * event of the loop has that key, provided every such event derives those
   * same specs and the occurrence is not dropped.
   */
  lemma {:induction false} SyncEventsCover(
    s: Store, events: seq<Event>, started: int, localOffset: int, stats: SyncStats, key: OccKey, specs: seq<RuleSpec>)
    requires Valid(s) && (key !in s.occurrences || s.occurrences[key].dropped == 0)
    requires forall i :: 0 <= i < |events| && HasId(events[i]) && EventKey(events[i], localOffset) == key ==>
      ComputeRuleSpecs(events[i].start, events[i].end, events[i].allDay, localOffset) == specs
    requires || CoversSpecs(s.rules, key, specs, started, localOffset)
             || exists i :: 0 <= i < |events| && HasId(events[i]) && EventKey(events[i], localOffset) == key
    ensures CoversSpecs(SyncEvents(s, events, started, localOffset, stats).store.rules, key, specs, started, localOffset)
    decreases |events|
  {
    if |events| > 0 {
      var e := events[0];
      var p := SyncEvent(s, e, started, localOffset, stats);
      var rest := events[1..];
      if !CoversSpecs(s.rules, key, specs, started, localOffset) && !(HasId(e) && EventKey(e, localOffset) == key) {
        var i :| 0 <= i < |events| && HasId(events[i]) && EventKey(events[i], localOffset) == key;
        assert rest[i - 1] == events[i];
      } else {
        SyncEventCoverStep(s, e, started, localOffset, stats, key, specs);
      }
      SyncEventEvolves(s, e, started, localOffset, stats);
      forall i | 0 <= i < |rest| && HasId(rest[i]) && EventKey(rest[i], localOffset) == key
        ensures ComputeRuleSpecs(rest[i].start, rest[i].end, rest[i].allDay, localOffset) == specs
      {
        assert rest[i] == events[i + 1];
      }
      SyncEventsCover(p.store, rest, started, localOffset, p.stats, key, specs);
    }
  }

  /**
   * A covered rule row of an occurrence new to the pass was inserted by it, so
   * it is fully pending with the covered trigger, and the unseen sweep spares
   * it because the pass saw its occurrence.
   */
  lemma CoveredNewRowSurvives(s: Store, p: Store, started: int, key: OccKey, name: string, trig: int, ack: int)
    requires Valid(s) && Evolves(s, p, started) && key !in s.occurrences
    requires Covers(p.rules, key, name, trig, ack)
    ensures HasPendingRule(CancelUnseenRuleReminders(p, started, started).store.rules, key, name, trig, ack)
  {
    OldRowsKeepKeys(s, p, started, key);
    var b := CancelUnseenRuleReminders(p, started, started).store;
    var i :| 0 <= i < |p.rules| && HasRuleKey(p.rules[i], key.eventId, key.start, name) &&
      (Terminal(p.rules[i]) || (p.rules[i].trigger == trig && p.rules[i].requiresAck == ack));
    assert Fresh(p.rules[i], p, started);
    assert !Unseen(p.occurrences, p.rules[i], started);
    assert b.rules[i] == p.rules[i];
  }

  /** Events with the same occurrence key and the same start offset have the same start, so derive the same specs. */
  lemma SameKeySameSpecs(e: Event, f: Event, localOffset: int)
    requires HasId(e) && HasId(f) && EventKey(e, localOffset) == EventKey(f, localOffset)
    requires e.start.offset == f.start.offset
    ensures ComputeRuleSpecs(e.start, e.end, e.allDay, localOffset) == ComputeRuleSpecs(f.start, f.end, f.allDay, localOffset)
  {
    assert e.start == f.start;
    SpecsIgnoreEndAndAllDay(f.start, e.end, f.end, e.allDay, f.allDay, localOffset);
  }

  /**
   * A pass that sees a brand-new event gives it a fully pending rule reminder
   * for every rule whose trigger is still ahead, with that rule's trigger and
   * acknowledgement requirement. Other events of the pass with the same
   * occurrence key must carry the same start offset (they then have the same
   * start, so derive the same specs).
   */
  lemma NewEventGetsReminders(s: Store, events: seq<Event>, n: nat, started: int, localOffset: int)
    requires Valid(s) && n < |events| && HasId(events[n]) && EventKey(events[n], localOffset) !in s.occurrences
    requires forall i :: 0 <= i < |events| && HasId(events[i]) && EventKey(events[i], localOffset) == EventKey(events[n], localOffset) ==>
      events[i].start.offset == events[n].start.offset
    ensures var key := EventKey(events[n], localOffset);
      var specs := ComputeRuleSpecs(events[n].start, events[n].end, events[n].allDay, localOffset);
      var b := SyncStore(s, events, started, localOffset).store;
      forall j :: 0 <= j < |specs| && ToUtc(specs[j].trigger, localOffset) > started ==>
        HasPendingRule(b.rules, key, specs[j].ruleName, ToUtc(specs[j].trigger, localOffset), specs[j].requiresAck)
  {
    var key := EventKey(events[n], localOffset);
    var specs := ComputeRuleSpecs(events[n].start, events[n].end, events[n].allDay, localOffset);
    forall i | 0 <= i < |events| && HasId(events[i]) && EventKey(events[i], localOffset) == key
      ensures ComputeRuleSpecs(events[i].start, events[i].end, events[i].allDay, localOffset) == specs
    {
      SameKeySameSpecs(events[i], events[n], localOffset);
    }
    var p := SyncEvents(s, events, started, localOffset, NoStats);
    SyncEventsCover(s, events, started, localOffset, NoStats, key, specs);
    SyncEventsEvolves(s, events, started, localOffset, NoStats);
    assert SyncStore(s, events, started, localOffset).store == CancelUnseenRuleReminders(p.store, started, started).store;
    forall j | 0 <= j < |specs| && ToUtc(specs[j].trigger, localOffset) > started
      ensures HasPendingRule(SyncStore(s, events, started, localOffset).store.rules, key, specs[j].ruleName,
                             ToUtc(specs[j].trigger, localOffset), specs[j].requiresAck)
    {
      CoveredNewRowSurvives(s, p.store, started, key, specs[j].ruleName, ToUtc(specs[j].trigger, localOffset), specs[j].requiresAck);
    }
  }
}

=== FILE: daemon.dfy ===
/**
 * The scheduler state and the firing policy of `DaemonState`: `sync`,
 * `fire_one_due` and `fire_one_any`. Presentation (sound and terminal window)
 * is an outside effect; the model records what would be presented and whether
 * spawning it succeeded.
 */
module Daemon {
  import opened Base
  import opened Refs
  import opened Tables
  import opened Store
  import opened Due
  import opened Reconcile

  datatype DaemonState = DaemonState(
    store: Store, syncInterval: int, spawnThrottle: int, lastSync: int, lastSpawn: int)

  /** A freshly started daemon with the default settings. */
  function Start(store: Store): DaemonState {
    DaemonState(store, 60, 10, 0, 0)
  }

  /** `DaemonState.sync`: one reconciliation pass whose clock reading is `started`. */
  function Sync(st: DaemonState, events: seq<Event>, started: int, localOffset: int): (r: (DaemonState, SyncStats))
    ensures r.0.lastSync == started
    ensures r.0.syncInterval == st.syncInterval && r.0.spawnThrottle == st.spawnThrottle
    ensures r.0.lastSpawn == st.lastSpawn
    ensures Valid(st.store) ==> Valid(r.0.store)
  {
    SyncKeepsValid(st.store, events, started, localOffset);
    var p := SyncStore(st.store, events, started, localOffset);
    (st.(store := p.store, lastSync := started), p.stats)
  }

  lemma SyncKeepsValid(s: Store, events: seq<Event>, started: int, localOffset: int)
    ensures Valid(s) ==> Valid(SyncStore(s, events, started, localOffset).store)
  {
    if Valid(s) {
      SyncStoreSpec(s, events, started, localOffset);
    }
  }

  /**
   * What a fire attempt did: nothing, presented the reminder, or marked it
   * fired and then failed to spawn the presenter (the source raises there).
   */
  datatype FireOutcome =
    | Idle
    | Spawned(ref: Ref, important: bool)
    | SpawnFailed(ref: Ref, important: bool)

  datatype Fired = Fired(state: DaemonState, outcome: FireOutcome)

  /** The throttle test of `fire_one_due`; a zero `last_spawn_utc` counts as never. */
  predicate Throttled(st: DaemonState, now: int) {
    st.lastSpawn != 0 && now - st.lastSpawn < st.spawnThrottle
  }

  ghost predicate IsDue(s: Store, ref: Ref, now: int) {
    GetReminder(s, ref).Some? && Pending(GetReminder(s, ref).value.row) && GetReminder(s, ref).value.row.trigger <= now
  }

  ghost predicate IsUpcoming(s: Store, ref: Ref, now: int) {
    GetReminder(s, ref).Some? && Pending(GetReminder(s, ref).value.row) && GetReminder(s, ref).value.row.trigger > now
  }

  function TriggerAt(s: Store, ref: Ref): int
    requires GetReminder(s, ref).Some?
  {
    GetReminder(s, ref).value.row.trigger
  }

  /** Marks the reminder fired, then hands it to the presenter; only a successful spawn updates `last_spawn_utc`. */
  function FireAndPresent(st: DaemonState, ref: Ref, now: int, important: bool, spawnOk: bool): Fired {
    var s := MarkFired(st.store, ref, now);
    if spawnOk then Fired(st.(store := s, lastSpawn := now), Spawned(ref, important))
    else Fired(st.(store := s), SpawnFailed(ref, important))
  }

  /** One reminder fires: the store marks it fired at `now`; `last_spawn_utc` moves only on a successful spawn. */
  ghost predicate FiredAt(st: DaemonState, r: Fired, now: int, important: bool) {
    && !r.outcome.Idle?
    && r.outcome.important == important
    && r.state.store == MarkFired(st.store, r.outcome.ref, now)
    && r.state.lastSpawn == (if r.outcome.Spawned? then now else st.lastSpawn)
    && r.state == st.(store := r.state.store, lastSpawn := r.state.lastSpawn)
  }

  /** The one-row due query names the earliest due reminder, or finds none exactly when none is due. */
  lemma FirstDue(s: Store, now: int)
    ensures var due := ListDueReminders(s, now, 1);
      && (|due| == 0 ==> forall ref :: !IsDue(s, ref, now))
      && (|due| > 0 ==> IsDue(s, due[0].ref, now) && TriggerAt(s, due[0].ref) == due[0].row.trigger)
      && (|due| > 0 ==> forall ref :: IsDue(s, ref, now) ==> due[0].row.trigger <= TriggerAt(s, ref))
  {
    var due := ListDueReminders(s, now, 1);
    forall ref | IsDue(s, ref, now) && GetReminder(s, ref).value !in due
      ensures |due| == 1 && due[0].row.trigger <= TriggerAt(s, ref)
    {
      assert Left(s, ref, DueRow(now), due);
      assert due[0] in due;
    }
    if |due| > 0 {
      assert due[0] in due;
    }
  }

  /** The same for the one-row query of reminders triggering after `now`. */
  lemma FirstUpcoming(s: Store, now: int)
    ensures var nxt := ListNextPendingReminders(s, now, 1);
      && (|nxt| == 0 ==> forall ref :: !IsUpcoming(s, ref, now))
      && (|nxt| > 0 ==> IsUpcoming(s, nxt[0].ref, now) && TriggerAt(s, nxt[0].ref) == nxt[0].row.trigger)
      && (|nxt| > 0 ==> forall ref :: IsUpcoming(s, ref, now) ==> nxt[0].row.trigger <= TriggerAt(s, ref))
  {
    var nxt := ListNextPendingReminders(s, now, 1);
    forall ref | IsUpcoming(s, ref, now) && GetReminder(s, ref).value !in nxt
      ensures |nxt| == 1 && nxt[0].row.trigger <= TriggerAt(s, ref)
    {
      assert Left(s, ref, UpcomingRow(now), nxt);
      assert nxt[0] in nxt;
    }
    if |nxt| > 0 {
      assert nxt[0] in nxt;
    }
  }

  /**
   * `fire_one_due`: unless the throttle holds it back, fires the earliest due
   * reminder at `now`.
   */
  function FireOneDue(st: DaemonState, now: int, important: bool, ignoreThrottle: bool, spawnOk: bool): (r: Fired)
    ensures Valid(st.store) ==> Valid(r.state.store)
    ensures !ignoreThrottle && Throttled(st, now) ==> r == Fired(st, Idle)
    ensures r.outcome.Idle? ==> r.state == st
    ensures r.outcome.Idle? && (ignoreThrottle || !Throttled(st, now)) ==> forall ref :: !IsDue(st.store, ref, now)
    ensures !r.outcome.Idle? ==>
      && FiredAt(st, r, now, important)
      && IsDue(st.store, r.outcome.ref, now)
      && forall ref :: IsDue(st.store, ref, now) ==> TriggerAt(st.store, r.outcome.ref) <= TriggerAt(st.store, ref)
  {
    if !ignoreThrottle && Throttled(st, now) then Fired(st, Idle)
    else
      var due := ListDueReminders(st.store, now, 1);
      FirstDue(st.store, now);
      if |due| == 0 then Fired(st, Idle)
      else FireAndPresent(st, due[0].ref, now, important, spawnOk)
  }

  /**
   * `fire_one_any`: fires the earliest due reminder ignoring the throttle; when
   * none is due, fires the earliest reminder triggering after the second clock
   * reading `later`.
   */
  function FireOneAny(st: DaemonState, now: int, later: int, important: bool, spawnOk: bool): (r: Fired)
    ensures Valid(st.store) ==> Valid(r.state.store)
    ensures r.outcome.Idle? ==> r.state == st
  {
    var d := FireOneDue(st, now, important, true, spawnOk);
    if !d.outcome.Idle? then d
    else
      var nxt := ListNextPendingReminders(st.store, later, 1);
      if |nxt| == 0 then Fired(st, Idle)
      else FireAndPresent(st, nxt[0].ref, later, important, spawnOk)
  }

  /** `fire_one_any` fires nothing exactly when nothing is due at `now` and nothing triggers after `later`. */
  lemma FireOneAnyIdle(st: DaemonState, now: int, later: int, important: bool, spawnOk: bool)
    ensures FireOneAny(st, now, later, important, spawnOk).outcome.Idle? <==>
      (forall ref :: !IsDue(st.store, ref, now)) && (forall ref :: !IsUpcoming(st.store, ref, later))
  {
    FirstUpcoming(st.store, later);
  }

  /** While something is due, `fire_one_any` is `fire_one_due` with the throttle ignored. */
  lemma FireOneAnyPrefersDue(st: DaemonState, now: int, later: int, important: bool, spawnOk: bool)
    requires exists ref :: IsDue(st.store, ref, now)
    ensures FireOneAny(st, now, later, important, spawnOk) == FireOneDue(st, now, important, true, spawnOk)
  {
  }

  /** With nothing due, `fire_one_any` fires the earliest reminder triggering after `later`, at `later`. */
  lemma FireOneAnyFallsBack(st: DaemonState, now: int, later: int, important: bool, spawnOk: bool)
    requires forall ref :: !IsDue(st.store, ref, now)
    ensures var r := FireOneAny(st, now, later, important, spawnOk);
      !r.outcome.Idle? ==>
        && FiredAt(st, r, later, important)
        && IsUpcoming(st.store, r.outcome.ref, later)
        && forall ref :: IsUpcoming(st.store, ref, later) ==> TriggerAt(st.store, r.outcome.ref) <= TriggerAt(st.store, ref)
  {
    FirstUpcoming(st.store, later);
  }

  /** Whatever `fire_one_any` fires was due at `now` or upcoming after `later`, and fires at that reading. */
  lemma FireOneAnyFires(st: DaemonState, now: int, later: int, important: bool, spawnOk: bool)
    ensures var r := FireOneAny(st, now, later, important, spawnOk);
      !r.outcome.Idle? ==>
        || (IsDue(st.store, r.outcome.ref, now) && FiredAt(st, r, now, important))
        || (IsUpcoming(st.store, r.outcome.ref, later) && FiredAt(st, r, later, important))
  {
    if exists ref :: IsDue(st.store, ref, now) {
      FireOneAnyPrefersDue(st, now, later, important, spawnOk);
    } else {
      FireOneAnyFallsBack(st, now, later, important, spawnOk);
    }
  }

  /**
   * With no spawn yet (`last_spawn_utc` zero) or the throttle interval
   * elapsed, the throttle test passes: the call acts as one told to ignore it.
   */
  lemma ThrottleLifts(st: DaemonState, now: int, important: bool, spawnOk: bool)
    requires st.lastSpawn == 0 || now - st.lastSpawn >= st.spawnThrottle
    ensures FireOneDue(st, now, important, false, spawnOk) == FireOneDue(st, now, important, true, spawnOk)
  {
  }

  /**
   * A freshly started daemon has never spawned, so its first attempt is never
   * throttled and acts as one that ignores the throttle.
   */
  lemma StartUnthrottled(store: Store, now: int, important: bool, spawnOk: bool)
    ensures !Throttled(Start(store), now)
    ensures FireOneDue(Start(store), now, important, false, spawnOk) == FireOneDue(Start(store), now, important, true, spawnOk)
  {
    ThrottleLifts(Start(store), now, important, spawnOk);
  }

  /**
   * With the throttle honoured, a second attempt sooner than `spawn_throttle_s`
   * after a successful spawn presents nothing, whatever is due by then.
   */
  lemma ThrottleSpacesSpawns(
    st: DaemonState, t1: int, t2: int, i1: bool, i2: bool, ok1: bool, ok2: bool)
    requires t1 != 0 && t2 - t1 < st.spawnThrottle
    ensures var a := FireOneDue(st, t1, i1, false, ok1);
      a.outcome.Spawned? ==> FireOneDue(a.state, t2, i2, false, ok2) == Fired(a.state, Idle)
  {
    var a := FireOneDue(st, t1, i1, false, ok1);
    if a.outcome.Spawned? {
      assert a.state.lastSpawn == t1 && a.state.spawnThrottle == st.spawnThrottle;
      assert Throttled(a.state, t2);
    }
  }

  /**
   * A fired reminder leaves the due queue whether or not its presenter
   * started: it is marked fired before the spawn, so no later due query
   * returns it again.
   */
  lemma FiredLeavesQueue(st: DaemonState, now: int, important: bool, ignoreThrottle: bool, spawnOk: bool, later: int)
    ensures var r := FireOneDue(st, now, important, ignoreThrottle, spawnOk);
      !r.outcome.Idle? ==>
        && GetReminder(r.state.store, r.outcome.ref).Some?
        && GetReminder(r.state.store, r.outcome.ref).value.row.fired == Some(now)
        && !IsDue(r.state.store, r.outcome.ref, later)
        && forall x :: x in ListDueReminders(r.state.store, later, -1) ==> x.ref != r.outcome.ref
  {
  }

  /**
   * `fire_one_any` reads the clock twice. A pending reminder whose trigger
   * falls between the two readings is neither due at the first nor after the
   * second, so with only such reminders pending nothing fires.
   */
  lemma FireOneAnyMissesBetweenReadings(st: DaemonState, now: int, later: int, important: bool, spawnOk: bool)
    requires forall ref :: GetReminder(st.store, ref).Some? && Pending(GetReminder(st.store, ref).value.row) ==>
      now < TriggerAt(st.store, ref) <= later
    ensures FireOneAny(st, now, later, important, spawnOk) == Fired(st, Idle)
  {
    FireOneAnyIdle(st, now, later, important, spawnOk);
  }

  /** With both clock readings equal, `fire_one_any` fires nothing exactly when no reminder is pending. */
  lemma FireOneAnyIdleIffNothingPending(st: DaemonState, now: int, important: bool, spawnOk: bool)
    ensures FireOneAny(st, now, now, important, spawnOk).outcome.Idle? <==>
      forall ref :: GetReminder(st.store, ref).Some? ==> !Pending(GetReminder(st.store, ref).value.row)
  {
    FireOneAnyIdle(st, now, now, important, spawnOk);
    FireOneAnyFires(st, now, now, important, spawnOk);
    if !FireOneAny(st, now, now, important, spawnOk).outcome.Idle? {
      var ref := FireOneAny(st, now, now, important, spawnOk).outcome.ref;
      assert IsDue(st.store, ref, now) || IsUpcoming(st.store, ref, now);
    } else {
      forall ref | GetReminder(st.store, ref).Some? ensures !Pending(GetReminder(st.store, ref).value.row) {
        assert !IsDue(st.store, ref, now) && !IsUpcoming(st.store, ref, now);
      }
    }
  }
}

=== FILE: due.dfy ===
/**
 * The reminder queue: the two reminder tables read as one stream ordered by
 * trigger time (`_select_due_union`, `list_due_reminders`,
 * `list_next_pending_reminders`).
 */
module Due {
  import opened Base
  import opened Refs
  import opened Tables
  import opened Store
  import opened Ordering

  /** Every row of a table with the reference that names it. */
  function Tagged(t: seq<Row>, kind: Kind): (r: seq<Listed>)
    ensures |r| == |t|
    ensures forall i :: 0 <= i < |t| ==> r[i] == Listed(Ref(kind, i + 1), t[i])
  {
    seq(|t|, i requires 0 <= i < |t| => Listed(Ref(kind, i + 1), t[i]))
  }

  /** The rows of `xs` that satisfy the `WHERE` clause `p`, in their order. */
  function Select(xs: seq<Listed>, p: Row -> bool): (r: seq<Listed>)
    ensures forall x :: x in r <==> x in xs && p(x.row)
    ensures Distinct(xs) ==> Distinct(r)
  {
    if |xs| == 0 then []
    else
      var rest := Select(xs[1..], p);
      if p(xs[0].row) then
        assert Distinct(xs) ==> xs[0] !in xs[1..];
        [xs[0]] + rest
      else rest
  }

  function TriggerOf(x: Listed): int {
    x.row.trigger
  }

  /** `SELECT ... FROM rule_reminders WHERE p UNION ALL SELECT ... FROM custom_reminders WHERE p ORDER BY trigger_utc ASC LIMIT limit`. */
  function Query(s: Store, p: Row -> bool, limit: int): seq<Listed> {
    Limit(SortBy(Matching(s, p), TriggerOf), limit)
  }

  /** What the query promises: only matching rows, each once, ordered, capped, and the earliest ones. */
  ghost predicate Answers(s: Store, p: Row -> bool, limit: int, r: seq<Listed>) {
    && (forall x :: x in r ==> GetReminder(s, x.ref) == Some(x) && p(x.row))
    && SortedBy(r, TriggerOf)
    && Distinct(r)
    && (limit >= 0 ==> |r| <= limit)
    && (forall ref :: Left(s, ref, p, r) ==>
          && 0 <= limit == |r|
          && forall y :: y in r ==> y.row.trigger <= GetReminder(s, ref).value.row.trigger)
  }

  /** `ref` names a row matching `p` that the answer `r` leaves out. */
  predicate Left(s: Store, ref: Ref, p: Row -> bool, r: seq<Listed>) {
    GetReminder(s, ref).Some? && p(GetReminder(s, ref).value.row) && GetReminder(s, ref).value !in r
  }

  lemma TaggedNamesRows(s: Store, kind: Kind, x: Listed)
    requires x in Tagged(Table(s, kind), kind)
    ensures GetReminder(s, x.ref) == Some(x)
  {
    var t := Table(s, kind);
    var i :| 0 <= i < |t| && Tagged(t, kind)[i] == x;
  }

  lemma TaggedIsDistinct(t: seq<Row>, kind: Kind)
    ensures Distinct(Tagged(t, kind))
  {
  }

  /** The query's input before ordering: both tables' matching rows. */
  function Matching(s: Store, p: Row -> bool): seq<Listed> {
    Select(Tagged(s.rules, Rule), p) + Select(Tagged(s.customs, Custom), p)
  }

  lemma MatchingIsDistinct(s: Store, p: Row -> bool)
    ensures Distinct(Matching(s, p))
  {
    var a := Select(Tagged(s.rules, Rule), p);
    var b := Select(Tagged(s.customs, Custom), p);
    TaggedIsDistinct(s.rules, Rule);
    TaggedIsDistinct(s.customs, Custom);
    forall i, j | 0 <= i < j < |a + b| ensures (a + b)[i] != (a + b)[j] {
      if j >= |a| && i < |a| {
        assert (a + b)[i] in Tagged(s.rules, Rule);
        assert (a + b)[j] in Tagged(s.customs, Custom);
      }
    }
  }

  lemma MatchingIsExact(s: Store, p: Row -> bool, x: Listed)
    ensures x in Matching(s, p) <==> GetReminder(s, x.ref) == Some(x) && p(x.row)
  {
    var a := Select(Tagged(s.rules, Rule), p);
    var b := Select(Tagged(s.customs, Custom), p);
    if x in a {
      TaggedNamesRows(s, Rule, x);
    } else if x in b {
      TaggedNamesRows(s, Custom, x);
    }
    if GetReminder(s, x.ref) == Some(x) && p(x.row) {
      var t := Table(s, x.ref.kind);
      assert Tagged(t, x.ref.kind)[x.ref.id - 1] == x;
    }
  }

  lemma {:induction false} QueryAnswers(s: Store, p: Row -> bool, limit: int)
    ensures Answers(s, p, limit, Query(s, p, limit))
  {
    var m := Matching(s, p);
    var sorted := SortBy(m, TriggerOf);
    var r := Limit(sorted, limit);
    assert r == Query(s, p, limit);
    MatchingIsDistinct(s, p);
    PermutationKeepsDistinct(m, sorted);
    forall x | x in r ensures GetReminder(s, x.ref) == Some(x) && p(x.row) {
      assert x in multiset(sorted);
      MatchingIsExact(s, p, x);
    }
    forall ref | Left(s, ref, p, r)
      ensures 0 <= limit == |r|
      ensures forall y :: y in r ==> y.row.trigger <= GetReminder(s, ref).value.row.trigger
    {
      var x := GetReminder(s, ref).value;
      MatchingIsExact(s, p, x);
      assert x in multiset(m);
      LimitKeepsEarliest(sorted, limit, x, TriggerOf);
    }
  }

  /** The `WHERE` clause that keeps every row. */
  function AnyRow(): Row -> bool {
    (r: Row) => true
  }

  /**
   * Lookup by id agrees with reading both tables: a reference finds a row
   * exactly when the unfiltered union lists a row under it, and the row it
   * finds is the one listed.
   */
  lemma LookupAgreesWithUnion(s: Store, ref: Ref)
    ensures GetReminder(s, ref).Some? <==> exists x :: x in Matching(s, AnyRow()) && x.ref == ref
    ensures forall x :: x in Matching(s, AnyRow()) && x.ref == ref ==> GetReminder(s, ref) == Some(x)
  {
    if GetReminder(s, ref).Some? {
      MatchingIsExact(s, AnyRow(), GetReminder(s, ref).value);
    }
    forall x | x in Matching(s, AnyRow()) && x.ref == ref ensures GetReminder(s, ref) == Some(x) {
      MatchingIsExact(s, AnyRow(), x);
    }
  }

  function DueRow(now: int): Row -> bool {
    (r: Row) => Pending(r) && r.trigger <= now
  }

  function UpcomingRow(now: int): Row -> bool {
    (r: Row) => Pending(r) && r.trigger > now
  }

  /**
   * `list_due_reminders`: pending reminders of either table whose trigger is
   * at or before `now`, earliest first, at most `limit` of them.
   */
  function ListDueReminders(s: Store, now: int, limit: int): (r: seq<Listed>)
    ensures forall x :: x in r ==> GetReminder(s, x.ref) == Some(x) && Pending(x.row) && x.row.trigger <= now
    ensures SortedBy(r, TriggerOf) && Distinct(r)
    ensures limit >= 0 ==> |r| <= limit
    ensures forall ref :: Left(s, ref, DueRow(now), r) ==>
      && 0 <= limit == |r|
      && forall y :: y in r ==> y.row.trigger <= GetReminder(s, ref).value.row.trigger
  {
    QueryAnswers(s, DueRow(now), limit);
    Query(s, DueRow(now), limit)
  }

  /** `list_next_pending_reminders`: the same query for pending reminders triggering after `now`. */
  function ListNextPendingReminders(s: Store, now: int, limit: int): (r: seq<Listed>)
    ensures forall x :: x in r ==> GetReminder(s, x.ref) == Some(x) && Pending(x.row) && x.row.trigger > now
    ensures SortedBy(r, TriggerOf) && Distinct(r)
    ensures limit >= 0 ==> |r| <= limit
    ensures forall ref :: Left(s, ref, UpcomingRow(now), r) ==>
      && 0 <= limit == |r|
      && forall y :: y in r ==> y.row.trigger <= GetReminder(s, ref).value.row.trigger
  {
    QueryAnswers(s, UpcomingRow(now), limit);
    Query(s, UpcomingRow(now), limit)
  }
}

=== FILE: facts.dfy ===
/**
 * Properties that relate several store operations: repeating an operation,
 * and what the lifecycle guarantees after an acknowledgement or a drop.
 */
module Facts {
  import opened Base
  import opened Refs
  import opened Tables
  import opened Store
  import opened Due

  /** A second identical upsert reports neither an insert nor a change, and writes nothing new. */
  lemma UpsertTwice(s: Store, eventId: string, start: int, end: int, allDay: int, lastSeen: int)
    ensures var a := UpsertOccurrence(s, eventId, start, end, allDay, lastSeen);
      UpsertOccurrence(a.store, eventId, start, end, allDay, lastSeen) == Step(a.store, (false, false))
  {
    var a := UpsertOccurrence(s, eventId, start, end, allDay, lastSeen);
    var k := OccKey(eventId, start);
    assert k in a.store.occurrences;
    assert a.store.occurrences[k := a.store.occurrences[k]] == a.store.occurrences;
  }

  /**
   * `ensure_rule_reminder` reports success for a row that has already fired
   * but is neither acked nor cancelled, and moves its trigger; its
   * `fired_utc` stays as it was.
   */
  lemma EnsureRefreshesFiredRow(
    s: Store, k: nat, trigger: int, requiresAck: int, created: int)
    requires Valid(s) && k < |s.rules|
    requires s.rules[k].fired.Some? && !Terminal(s.rules[k])
    ensures var row := s.rules[k];
      var r := EnsureRuleReminder(s, row.eventId, row.occStart, row.ruleName.value, trigger, requiresAck, created);
      && r.out
      && GetReminder(r.store, Ref(Rule, k + 1)).value.row == row.(trigger := trigger, requiresAck := requiresAck)
      && GetReminder(r.store, Ref(Rule, k + 1)).value.row.fired == row.fired
  {
    var row := s.rules[k];
    assert KeyOf(row) in s.occurrences;
    assert HasRuleKey(s.rules[k], row.eventId, row.occStart, row.ruleName.value);
  }

  /** Calling `ensure_rule_reminder` twice with the same arguments leaves what the first call wrote. */
  lemma EnsureTwice(
    s: Store, eventId: string, occStart: int, ruleName: string, trigger: int, requiresAck: int, created: int)
    requires Valid(s) && OccKey(eventId, occStart) in s.occurrences
    ensures var a := EnsureRuleReminder(s, eventId, occStart, ruleName, trigger, requiresAck, created);
      EnsureRuleReminder(a.store, eventId, occStart, ruleName, trigger, requiresAck, created).store == a.store
  {
    var a := EnsureRuleReminder(s, eventId, occStart, ruleName, trigger, requiresAck, created);
    var k := FindRuleRow(a.store.rules, eventId, occStart, ruleName).value;
    var row := a.store.rules[k];
    if !Terminal(row) {
      assert row.trigger == trigger && row.requiresAck == requiresAck;
      assert a.store.rules[k := row.(trigger := trigger, requiresAck := requiresAck)] == a.store.rules;
    }
  }

  /** A second acknowledgement reports no change and writes nothing, whatever its timestamp. */
  lemma AckTwice(s: Store, ref: Ref, t1: int, t2: int)
    ensures var a := AckReminder(s, ref, t1);
      AckReminder(a.store, ref, t2) == Step(a.store, false)
  {
  }

  /** `ack_reminder` does not look at `cancelled_utc`: a cancelled, unacked reminder is still acked. */
  lemma AckIgnoresCancellation(s: Store, ref: Ref, at: int)
    requires GetReminder(s, ref).Some?
    requires GetReminder(s, ref).value.row.cancelled.Some? && GetReminder(s, ref).value.row.acked.None?
    ensures AckReminder(s, ref, at).out
  {
  }

  /**
   * After a drop no reminder of the occurrence is open: each is acked or
   * cancelled, including ones that had fired without an acknowledgement.
   * Reminders of other occurrences are untouched.
   */
  lemma DropClosesOccurrence(s: Store, eventId: string, occStart: int, now: int, ref: Ref)
    requires GetReminder(s, ref).Some?
    ensures var after := DropOccurrence(s, eventId, occStart, now).store;
      var before := GetReminder(s, ref).value.row;
      && GetReminder(after, ref).Some?
      && (OfOccurrence(before, eventId, occStart) ==> Terminal(GetReminder(after, ref).value.row))
      && (OfOccurrence(before, eventId, occStart) && !Terminal(before) ==>
            GetReminder(after, ref).value.row == before.(cancelled := Some(now)))
      && (!OfOccurrence(before, eventId, occStart) ==> GetReminder(after, ref) == GetReminder(s, ref))
  {
    var d := DropOccurrence(s, eventId, occStart, now);
    assert Table(d.store, ref.kind)[ref.id - 1]
      == if Cancellable(Table(s, ref.kind)[ref.id - 1], eventId, occStart)
         then Table(s, ref.kind)[ref.id - 1].(cancelled := Some(now))
         else Table(s, ref.kind)[ref.id - 1];
  }

  /** Dropping an occurrence twice cancels nothing the second time and writes nothing new. */
  lemma DropTwice(s: Store, eventId: string, occStart: int, t1: int, t2: int)
    ensures var a := DropOccurrence(s, eventId, occStart, t1);
      DropOccurrence(a.store, eventId, occStart, t2) == Step(a.store, (0, 0))
  {
    var a := DropOccurrence(s, eventId, occStart, t1);
    var b := DropOccurrence(a.store, eventId, occStart, t2);
    forall kind, i | 0 <= i < |Table(a.store, kind)| ensures Table(b.store, kind)[i] == Table(a.store, kind)[i] {
      assert !Cancellable(Table(a.store, kind)[i], eventId, occStart);
    }
    assert b.store.rules == a.store.rules by {
      assert Table(b.store, Rule) == b.store.rules && Table(a.store, Rule) == a.store.rules;
    }
    assert b.store.customs == a.store.customs by {
      assert Table(b.store, Custom) == b.store.customs && Table(a.store, Custom) == a.store.customs;
    }
    NoneDifferIffEqual(a.store.rules, b.store.rules);
    NoneDifferIffEqual(a.store.customs, b.store.customs);
    var k := OccKey(eventId, occStart);
    if k in a.store.occurrences {
      assert a.store.occurrences[k := a.store.occurrences[k].(dropped := 1)] == a.store.occurrences;
    }
  }

  /** `cancel_unseen_rule_reminders` spares any rule reminder that has fired, even when its occurrence went unseen. */
  lemma UnseenCancelSparesFired(s: Store, before: int, at: int, k: nat)
    requires k < |s.rules| && s.rules[k].fired.Some?
    ensures CancelUnseenRuleReminders(s, before, at).store.rules[k] == s.rules[k]
  {
  }
}

=== FILE: ordering.dfy ===
/**
 * A stable sort by an integer key: the model's `ORDER BY key ASC`. SQL leaves
 * the order of equal keys open; this model keeps the input order for them.
 */
module Ordering {

  predicate SortedBy<T>(xs: seq<T>, key: T -> int) {
    forall i, j :: 0 <= i < j < |xs| ==> key(xs[i]) <= key(xs[j])
  }

  /** Inserts `x` before the first element whose key is not smaller. */
  function InsertBy<T>(x: T, xs: seq<T>, key: T -> int): (r: seq<T>)
    requires SortedBy(xs, key)
    ensures SortedBy(r, key)
    ensures multiset(r) == multiset(xs) + multiset{x}
  {
    if |xs| == 0 || key(x) <= key(xs[0]) then
      ConsSorted(x, xs, key);
      [x] + xs
    else
      var rest := InsertBy(x, xs[1..], key);
      assert xs == [xs[0]] + xs[1..];
      TailAboveHead(xs, key);
      KeysBounded(x, xs[1..], rest, key, key(xs[0]));
      ConsSorted(xs[0], rest, key);
      [xs[0]] + rest
  }

  lemma TailAboveHead<T>(xs: seq<T>, key: T -> int)
    requires SortedBy(xs, key) && |xs| > 0
    ensures forall y :: y in xs[1..] ==> key(xs[0]) <= key(y)
  {
    forall y | y in xs[1..] ensures key(xs[0]) <= key(y) {
      var k :| 0 <= k < |xs[1..]| && xs[1..][k] == y;
      assert xs[k + 1] == y;
    }
  }

  /** A permutation of `xs` plus `x` keeps every key at or above a bound they all respect. */
  lemma KeysBounded<T>(x: T, xs: seq<T>, r: seq<T>, key: T -> int, lo: int)
    requires multiset(r) == multiset(xs) + multiset{x}
    requires lo <= key(x) && forall y :: y in xs ==> lo <= key(y)
    ensures forall j :: 0 <= j < |r| ==> lo <= key(r[j])
  {
    forall j | 0 <= j < |r| ensures lo <= key(r[j]) {
      assert r[j] in multiset(r);
      if r[j] != x {
        assert r[j] in multiset(xs);
      }
    }
  }

  lemma ConsSorted<T>(h: T, rest: seq<T>, key: T -> int)
    requires SortedBy(rest, key)
    requires forall j :: 0 <= j < |rest| ==> key(h) <= key(rest[j])
    ensures SortedBy([h] + rest, key)
  {
    var r := [h] + rest;
    forall i, j | 0 <= i < j < |r| ensures key(r[i]) <= key(r[j]) {
      assert r[j] == rest[j - 1];
      if i > 0 {
        assert r[i] == rest[i - 1];
      }
    }
  }

  /** Insertion sort: ordered by `key`, a permutation of the input. */
  function SortBy<T>(xs: seq<T>, key: T -> int): (r: seq<T>)
    ensures SortedBy(r, key)
    ensures multiset(r) == multiset(xs)
  {
    if |xs| == 0 then []
    else
      assert xs == [xs[0]] + xs[1..];
      InsertBy(xs[0], SortBy(xs[1..], key), key)
  }

  /** SQL `LIMIT n`; SQLite treats a negative limit as no limit. */
  function Limit<T>(xs: seq<T>, n: int): (r: seq<T>)
    ensures n >= 0 ==> |r| == if n < |xs| then n else |xs|
    ensures n < 0 ==> r == xs
    ensures r <= xs
  {
    if n < 0 || n >= |xs| then xs else xs[..n]
  }

  /** Every element left out of a capped sorted list is no earlier than any kept one. */
  lemma LimitKeepsEarliest<T>(sorted: seq<T>, limit: int, x: T, key: T -> int)
    requires SortedBy(sorted, key)
    requires x in sorted && x !in Limit(sorted, limit)
    ensures 0 <= limit == |Limit(sorted, limit)|
    ensures forall y :: y in Limit(sorted, limit) ==> key(y) <= key(x)
  {
    var r := Limit(sorted, limit);
    var j :| 0 <= j < |sorted| && sorted[j] == x;
    assert 0 <= limit < |sorted|;
    assert j >= limit;
    forall y | y in r ensures key(y) <= key(x) {
      var i :| 0 <= i < |r| && r[i] == y;
      assert sorted[i] == y;
    }
  }

  predicate Distinct<T(==)>(xs: seq<T>) {
    forall i, j :: 0 <= i < j < |xs| ==> xs[i] != xs[j]
  }

  lemma {:induction false} DistinctHasSingleCounts<T>(xs: seq<T>, x: T)
    requires Distinct(xs)
    ensures multiset(xs)[x] <= 1
  {
    if |xs| > 0 {
      assert xs == [xs[0]] + xs[1..];
      DistinctHasSingleCounts(xs[1..], x);
      if xs[0] == x {
        assert x !in xs[1..];
      }
    }
  }

  lemma SingleCountsAreDistinct<T>(xs: seq<T>)
    requires forall x :: multiset(xs)[x] <= 1
    ensures Distinct(xs)
  {
    forall i, j | 0 <= i < j < |xs| ensures xs[i] != xs[j] {
      if xs[i] == xs[j] {
        RepeatCountsTwice(xs, i, j);
      }
    }
  }

  lemma RepeatCountsTwice<T>(xs: seq<T>, i: nat, j: nat)
    requires i < j < |xs| && xs[i] == xs[j]
    ensures multiset(xs)[xs[i]] >= 2
  {
    assert xs == xs[..j] + xs[j..];
    assert xs[i] in xs[..j];
    assert xs[j] in xs[j..];
  }

  /** A permutation of a sequence without repetitions has none either. */
  lemma PermutationKeepsDistinct<T>(a: seq<T>, b: seq<T>)
    requires multiset(a) == multiset(b)
    requires Distinct(a)
    ensures Distinct(b)
  {
    forall x ensures multiset(b)[x] <= 1 {
      DistinctHasSingleCounts(a, x);
    }
    SingleCountsAreDistinct(b);
  }
}

=== FILE: pytext.dfy ===
/**
 * The few pieces of Python's text handling the engine relies on:
 * `str.strip()`, `int(s)` in base 10 and `str(n)` for integers.
 */
module PyText {
  import opened Base

  /** The characters for which Python's `str.isspace()` holds; `str.strip()` drops them. */
  predicate IsSpace(c: char) {
    c == ' ' || ('\t' <= c <= '\r') || ('\U{1C}' <= c <= '\U{1F}')
    || c == '\U{85}' || c == '\U{A0}' || c == '\U{1680}' || ('\U{2000}' <= c <= '\U{200A}')
    || c == '\U{2028}' || c == '\U{2029}' || c == '\U{202F}' || c == '\U{205F}' || c == '\U{3000}'
  }

  /**
   * The whitespace `int()` skips around its digits. CPython maps non-ASCII
   * whitespace to a space but keeps ASCII characters as they are, and then skips
   * only " \t\n\v\f\r"; the separators U+001C to U+001F are therefore rejected.
   */
  predicate IntSpace(c: char) {
    IsSpace(c) && !IsSeparator(c)
  }

  /** The ASCII information separators U+001C to U+001F. */
  predicate IsSeparator(c: char) {
    '\U{1C}' <= c <= '\U{1F}'
  }

  /** Which whitespace a trim drops: that of `str.strip()` or that of `int()`. */
  datatype Blanks = StripBlanks | IntBlanks

  predicate Drops(drop: Blanks, c: char) {
    IsSpace(c) && (drop == StripBlanks || !IsSeparator(c))
  }

  /** `s` without its leading characters in `drop`. */
  function TrimStart(s: string, drop: Blanks): (r: string)
    ensures |r| <= |s|
    ensures r == s[|s| - |r|..]
    ensures |r| > 0 ==> !Drops(drop, r[0])
    ensures forall k :: 0 <= k < |s| - |r| ==> Drops(drop, s[k])
  {
    if |s| > 0 && Drops(drop, s[0]) then TrimStart(s[1..], drop) else s
  }

  /** `s` without its trailing characters in `drop`. */
  function TrimEnd(s: string, drop: Blanks): (r: string)
    ensures |r| <= |s|
    ensures r == s[..|r|]
    ensures |r| > 0 ==> !Drops(drop, r[|r| - 1])
    ensures forall k :: |r| <= k < |s| ==> Drops(drop, s[k])
  {
    if |s| > 0 && Drops(drop, s[|s| - 1]) then TrimEnd(s[..|s| - 1], drop) else s
  }

  /** `s` without the characters in `drop` at either end. */
  function Trim(s: string, drop: Blanks): string {
    TrimEnd(TrimStart(s, drop), drop)
  }

  /** Python's `s.strip()`. */
  function Strip(s: string): string {
    Trim(s, StripBlanks)
  }

  predicate IsDigit(c: char) {
    '0' <= c <= '9'
  }

  function DigitValue(c: char): nat
    requires IsDigit(c)
  {
    (c as int) - ('0' as int)
  }

  function DigitChar(d: nat): (c: char)
    requires d < 10
    ensures IsDigit(c) && DigitValue(c) == d
  {
    (('0' as int) + d) as char
  }

  /** Decimal digits of `n`, most significant first, as Python's `str(n)` writes them. */
  function NatToDigits(n: nat): (r: string)
    ensures |r| > 0
    ensures forall k :: 0 <= k < |r| ==> IsDigit(r[k])
  {
    if n < 10 then [DigitChar(n)] else NatToDigits(n / 10) + [DigitChar(n % 10)]
  }

  /** Python's `str(i)` for an integer. */
  function IntToString(i: int): (r: string)
    ensures |r| > 0 && IsDigit(r[|r| - 1])
  {
    if i < 0 then "-" + NatToDigits(-i) else NatToDigits(i)
  }

  predicate DigitsOrUnderscores(t: string) {
    forall k :: 0 <= k < |t| ==> IsDigit(t[k]) || t[k] == '_'
  }

  /** Digit strings `int()` accepts in base 10: digits, with single underscores between digits. */
  predicate WellFormedDigits(t: string) {
    && DigitsOrUnderscores(t)
    && |t| > 0
    && IsDigit(t[0])
    && IsDigit(t[|t| - 1])
    && forall k :: 0 <= k < |t| ==> IsDigit(t[k]) || (t[k] == '_' && k + 1 < |t| && IsDigit(t[k + 1]))
  }

  /** The number a digit string denotes; underscores are ignored. */
  function DigitsValue(t: string): nat
    requires DigitsOrUnderscores(t)
  {
    if |t| == 0 then 0
    else if t[|t| - 1] == '_' then DigitsValue(t[..|t| - 1])
    else DigitsValue(t[..|t| - 1]) * 10 + DigitValue(t[|t| - 1])
  }

  /** Python's `int(s)`: `None` where it raises `ValueError`. */
  function ParseInt(s: string): Option<int> {
    var t := Trim(s, IntBlanks);
    if |t| > 0 && (t[0] == '+' || t[0] == '-') then
      if WellFormedDigits(t[1..]) then
        var n: int := DigitsValue(t[1..]);
        Some(if t[0] == '-' then -n else n)
      else None
    else if WellFormedDigits(t) then Some(DigitsValue(t))
    else None
  }

  lemma {:induction false} TrimStartSkips(pre: string, rest: string, drop: Blanks)
    requires forall k :: 0 <= k < |pre| ==> Drops(drop, pre[k])
    requires |rest| > 0 && !Drops(drop, rest[0])
    ensures TrimStart(pre + rest, drop) == rest
  {
    if |pre| > 0 {
      assert (pre + rest)[1..] == pre[1..] + rest;
      TrimStartSkips(pre[1..], rest, drop);
    } else {
      assert pre + rest == rest;
    }
  }

  lemma {:induction false} TrimEndSkips(rest: string, post: string, drop: Blanks)
    requires forall k :: 0 <= k < |post| ==> Drops(drop, post[k])
    requires |rest| > 0 && !Drops(drop, rest[|rest| - 1])
    ensures TrimEnd(rest + post, drop) == rest
  {
    if |post| > 0 {
      assert (rest + post)[..|rest + post| - 1] == rest + post[..|post| - 1];
      TrimEndSkips(rest, post[..|post| - 1], drop);
    } else {
      assert rest + post == rest;
    }
  }

  /** Stripping removes exactly the whitespace padding around a text that neither starts nor ends with whitespace. */
  lemma StripPadded(pre: string, t: string, post: string)
    requires forall k :: 0 <= k < |pre| ==> IsSpace(pre[k])
    requires forall k :: 0 <= k < |post| ==> IsSpace(post[k])
    requires |t| > 0 && !IsSpace(t[0]) && !IsSpace(t[|t| - 1])
    ensures Strip(pre + t + post) == t
  {
    assert pre + t + post == pre + (t + post);
    TrimStartSkips(pre, t + post, StripBlanks);
    TrimEndSkips(t, post, StripBlanks);
  }

  /** `str` then `int` gives back every natural number's digit string value. */
  lemma {:induction false} DigitsRoundTrip(n: nat)
    ensures WellFormedDigits(NatToDigits(n))
    ensures DigitsValue(NatToDigits(n)) == n
  {
    var t := NatToDigits(n);
    if n >= 10 {
      DigitsRoundTrip(n / 10);
      assert t[..|t| - 1] == NatToDigits(n / 10);
    }
  }

  /** A string that neither starts nor ends with a character in `drop` is its own trim. */
  lemma TrimUnpadded(s: string, drop: Blanks)
    requires |s| > 0 && !Drops(drop, s[0]) && !Drops(drop, s[|s| - 1])
    ensures Trim(s, drop) == s
  {
  }

  /** A string that neither starts nor ends with whitespace is its own strip. */
  lemma StripUnpadded(s: string)
    requires |s| > 0 && !IsSpace(s[0]) && !IsSpace(s[|s| - 1])
    ensures Strip(s) == s
  {
    TrimUnpadded(s, StripBlanks);
  }

  /** `int(str(i)) == i` for every integer, negative ones included. */
  lemma {:induction false} IntRoundTrip(i: int)
    ensures ParseInt(IntToString(i)) == Some(i)
  {
    var s := IntToString(i);
    var d := if i < 0 then NatToDigits(-i) else NatToDigits(i);
    DigitsRoundTrip(if i < 0 then -i else i);
    TrimUnpadded(s, IntBlanks);
    if i < 0 {
      assert s[1..] == d;
    }
  }

  /** A string that is empty after stripping is rejected by `int()`. */
  lemma BlankIsNotAnInt(s: string)
    requires forall k :: 0 <= k < |s| ==> IsSpace(s[k])
    ensures ParseInt(s) == None
  {
    var t := Trim(s, IntBlanks);
    if |t| > 0 {
      assert t == TrimStart(s, IntBlanks)[..|t|];
      assert IsSpace(t[0]);
    }
  }

  lemma SameTrimSameInt(a: string, b: string)
    requires Trim(a, IntBlanks) == Trim(b, IntBlanks)
    ensures ParseInt(a) == ParseInt(b)
  {
  }

  /** The digits of `str(n)` neither start nor end with whitespace of either kind. */
  lemma DigitsUnpadded(n: nat, drop: Blanks)
    ensures var d := IntToString(n); !Drops(drop, d[0]) && !Drops(drop, d[|d| - 1])
  {
    assert IntToString(n)[0] == NatToDigits(n)[0];
  }

  lemma StripSkipsSpaceBeforeDigits(c: char, n: nat)
    requires IsSpace(c)
    ensures Strip([c] + IntToString(n)) == IntToString(n)
  {
    var d := IntToString(n);
    DigitsUnpadded(n, StripBlanks);
    TrimStartSkips([c], d, StripBlanks);
    TrimUnpadded(d, StripBlanks);
  }

  lemma IntSkipsSpaceBeforeDigits(c: char, n: nat)
    requires IntSpace(c)
    ensures ParseInt([c] + IntToString(n)) == Some(n)
  {
    var d := IntToString(n);
    DigitsUnpadded(n, IntBlanks);
    TrimStartSkips([c], d, IntBlanks);
    TrimUnpadded(d, IntBlanks);
    SameTrimSameInt([c] + d, d);
    IntRoundTrip(n);
  }

  lemma IntRejectsSeparatorBeforeDigits(c: char, n: nat)
    requires IsSeparator(c)
    ensures ParseInt([c] + IntToString(n)) == None
  {
    var t := [c] + IntToString(n);
    DigitsUnpadded(n, IntBlanks);
    assert t[|t| - 1] == IntToString(n)[|IntToString(n)| - 1];
    TrimUnpadded(t, IntBlanks);
  }

  /**
   * `int()` skips a whitespace character before the digits exactly when it is
   * not one of the separators U+001C to U+001F, although `str.strip()` drops
   * those too.
   */
  lemma IntSkipsSpaceButNotSeparators(c: char, n: nat)
    requires IsSpace(c)
    ensures Strip([c] + IntToString(n)) == IntToString(n)
    ensures ParseInt([c] + IntToString(n)) == if IntSpace(c) then Some(n) else None
  {
    StripSkipsSpaceBeforeDigits(c, n);
    if IntSpace(c) {
      IntSkipsSpaceBeforeDigits(c, n);
    } else {
      IntRejectsSeparatorBeforeDigits(c, n);
    }
  }
}

=== FILE: reconcile.dfy ===
/**
 * The reconciler (`DaemonState.sync`): one pass over the calendar's
 * occurrences that upserts them, derives their rule reminders and retracts
 * the rule reminders of occurrences the pass did not see.
 */
module Reconcile {
  import opened Base
  import opened Tables
  import opened Store
  import opened Rules

  /** One occurrence from the calendar source; its summary and link play no part here. */
  datatype Event = Event(id: Option<string>, start: DateTime, end: DateTime, allDay: bool)

  /** `if not e.id: continue` skips events whose id is missing or empty. */
  predicate HasId(e: Event) {
    e.id.Some? && e.id.value != ""
  }

  /** Events that carry an id, in their given order. */
  function Identified(events: seq<Event>): (r: seq<Event>)
    ensures forall e :: e in r <==> e in events && HasId(e)
    ensures |r| <= |events|
  {
    if |events| == 0 then []
    else (if HasId(events[0]) then [events[0]] else []) + Identified(events[1..])
  }

  function EventKey(e: Event, localOffset: int): OccKey
    requires HasId(e)
  {
    OccKey(e.id.value, ToUtc(e.start, localOffset))
  }

  /** The counters `sync` reports. */
  datatype SyncStats = SyncStats(
    seen: nat, occUpserted: nat, occChanged: nat, ruleChanged: nat, cancelledUnseen: nat, skippedPast: nat)

  const NoStats := SyncStats(0, 0, 0, 0, 0, 0)

  datatype Pass = Pass(store: Store, stats: SyncStats)

  /** How many of the specs trigger at or before `started`. */
  function PastCount(specs: seq<RuleSpec>, started: int, localOffset: int): (r: nat)
    ensures r <= |specs|
    decreases |specs|
  {
    if |specs| == 0 then 0
    else (if ToUtc(specs[0].trigger, localOffset) <= started then 1 else 0) + PastCount(specs[1..], started, localOffset)
  }

  /**
   * The inner loop over an occurrence's rule specs: a spec whose trigger is at
   * or before `started` is skipped and counted in `skipped_past`; every other
   * one goes to `ensure_rule_reminder`, and `rule_changed` counts those that
   * report true. Only rule rows change.
   */
  function EnsureSpecs(s: Store, key: OccKey, specs: seq<RuleSpec>, started: int, localOffset: int, stats: SyncStats)
    : (r: Pass)
    requires key in s.occurrences
    ensures r.store.occurrences == s.occurrences && r.store.customs == s.customs
    decreases |specs|
  {
    if |specs| == 0 then Pass(s, stats)
    else
      var trig := ToUtc(specs[0].trigger, localOffset);
      if trig <= started then
        EnsureSpecs(s, key, specs[1..], started, localOffset, stats.(skippedPast := stats.skippedPast + 1))
      else
        var e := EnsureRuleReminder(s, key.eventId, key.start, specs[0].ruleName, trig, specs[0].requiresAck, started);
        EnsureSpecs(e.store, key, specs[1..], started, localOffset,
                    stats.(ruleChanged := stats.ruleChanged + if e.out then 1 else 0))
  }

  /** The occurrence upsert for an event with an id, at its UTC start and end. */
  function UpsertEvent(s: Store, e: Event, started: int, localOffset: int): Step<(bool, bool)>
    requires HasId(e)
  {
    var key := EventKey(e, localOffset);
    UpsertOccurrence(s, key.eventId, key.start, ToUtc(e.end, localOffset), if e.allDay then 1 else 0, started)
  }

  /** The counters after an upsert that reported `(inserted, changed)`. */
  function Counted(stats: SyncStats, out: (bool, bool)): SyncStats {
    stats.(
      seen := stats.seen + 1,
      occUpserted := stats.occUpserted + if out.0 || out.1 then 1 else 0,
      occChanged := stats.occChanged + if out.1 then 1 else 0)
  }

  /**
   * The body of the loop over events: an event without an id is skipped;
   * otherwise it is counted as seen, its occurrence is upserted (and counted
   * when inserted or changed) and, unless dropped, gets its rule specs.
   */
  function SyncEvent(s: Store, e: Event, started: int, localOffset: int, stats: SyncStats): (r: Pass)
    ensures !HasId(e) ==> r == Pass(s, stats)
    ensures HasId(e) ==> EventKey(e, localOffset) in r.store.occurrences
    ensures r.store.customs == s.customs
  {
    if !HasId(e) then Pass(s, stats)
    else
      var key := EventKey(e, localOffset);
      var u := UpsertEvent(s, e, started, localOffset);
      match GetOccurrence(u.store, key.eventId, key.start)
      case None => Pass(u.store, Counted(stats, u.out))
      case Some(o) =>
        if o.dropped != 0 then Pass(u.store, Counted(stats, u.out))
        else EnsureSpecs(u.store, key, ComputeRuleSpecs(e.start, e.end, e.allDay, localOffset), started, localOffset,
                         Counted(stats, u.out))
  }

  /** The loop over events, in the order the source returned them. */
  function SyncEvents(s: Store, events: seq<Event>, started: int, localOffset: int, stats: SyncStats): (r: Pass)
    ensures r.store.customs == s.customs
    decreases |events|
  {
    if |events| == 0 then Pass(s, stats)
    else
      var p := SyncEvent(s, events[0], started, localOffset, stats);
      SyncEvents(p.store, events[1..], started, localOffset, p.stats)
  }

  /**
   * A whole pass started at `started`: the event loop, then the unseen sweep.
   * `seen_from_gcal` counts the events with an id; an occurrence counts as
   * changed only if it counts as upserted, and each seen event adds at most
   * four to `skipped_past` and `rule_changed` together.
   */
  function SyncStore(s: Store, events: seq<Event>, started: int, localOffset: int): (r: Pass)
    ensures r.store.customs == s.customs
    ensures r.stats.seen == |Identified(events)|
    ensures r.stats.occChanged <= r.stats.occUpserted <= r.stats.seen
    ensures r.stats.skippedPast + r.stats.ruleChanged <= 4 * r.stats.seen
  {
    var p := SyncEvents(s, events, started, localOffset, NoStats);
    SyncEventsCounts(s, events, started, localOffset, NoStats);
    var c := CancelUnseenRuleReminders(p.store, started, started);
    Pass(c.store, p.stats.(cancelledUnseen := c.out))
  }

  /** The occurrence keys a pass observes. */
  function ObservedKeys(events: seq<Event>, localOffset: int): set<OccKey>
    decreases |events|
  {
    if |events| == 0 then {}
    else (if HasId(events[0]) then {EventKey(events[0], localOffset)} else {}) + ObservedKeys(events[1..], localOffset)
  }

  // ---------------------------------------------------------------------------
  // The counters a pass reports.

  /** The spec loop adds the skipped specs to `skipped_past` and at most the others to `rule_changed`, and no other counter moves. */
  lemma {:induction false} EnsureSpecsCounts(
    s: Store, key: OccKey, specs: seq<RuleSpec>, started: int, localOffset: int, stats: SyncStats)
    requires key in s.occurrences
    ensures var r := EnsureSpecs(s, key, specs, started, localOffset, stats).stats;
      && r == stats.(skippedPast := r.skippedPast, ruleChanged := r.ruleChanged)
      && r.skippedPast == stats.skippedPast + PastCount(specs, started, localOffset)
      && stats.ruleChanged <= r.ruleChanged <= stats.ruleChanged + |specs| - PastCount(specs, started, localOffset)
    decreases |specs|
  {
    if |specs| > 0 {
      var trig := ToUtc(specs[0].trigger, localOffset);
      if trig <= started {
        EnsureSpecsCounts(s, key, specs[1..], started, localOffset, stats.(skippedPast := stats.skippedPast + 1));
      } else {
        var e := EnsureRuleReminder(s, key.eventId, key.start, specs[0].ruleName, trig, specs[0].requiresAck, started);
        EnsureSpecsCounts(e.store, key, specs[1..], started, localOffset,
                          stats.(ruleChanged := stats.ruleChanged + if e.out then 1 else 0));
      }
    }
  }

  /**
   * One event: `seen_from_gcal` moves by one exactly for an event with an id;
   * `occ_changed` moves only with `occ_upserted`, and that only with `seen`;
   * the four specs add at most four to `skipped_past` and `rule_changed`.
   */
  lemma SyncEventCounts(s: Store, e: Event, started: int, localOffset: int, stats: SyncStats)
    ensures var r := SyncEvent(s, e, started, localOffset, stats).stats;
      && r.seen == stats.seen + (if HasId(e) then 1 else 0)
      && stats.occChanged <= r.occChanged
      && r.occChanged - stats.occChanged <= r.occUpserted - stats.occUpserted <= r.seen - stats.seen
      && stats.skippedPast <= r.skippedPast && stats.ruleChanged <= r.ruleChanged
      && (r.skippedPast - stats.skippedPast) + (r.ruleChanged - stats.ruleChanged) <= 4 * (r.seen - stats.seen)
      && r.cancelledUnseen == stats.cancelledUnseen
  {
    if HasId(e) {
      var key := EventKey(e, localOffset);
      var u := UpsertEvent(s, e, started, localOffset);
      var o := GetOccurrence(u.store, key.eventId, key.start);
      if o.Some? && o.value.dropped == 0 {
        EnsureSpecsCounts(u.store, key, ComputeRuleSpecs(e.start, e.end, e.allDay, localOffset), started, localOffset,
                          Counted(stats, u.out));
      }
    }
  }

  /** The event loop: `seen_from_gcal` grows by the number of events with an id, and the counters keep their relations. */
  lemma {:induction false} SyncEventsCounts(s: Store, events: seq<Event>, started: int, localOffset: int, stats: SyncStats)
    ensures var r := SyncEvents(s, events, started, localOffset, stats).stats;
      && r.seen == stats.seen + |Identified(events)|
      && stats.occChanged <= r.occChanged
      && r.occChanged - stats.occChanged <= r.occUpserted - stats.occUpserted <= r.seen - stats.seen
      && stats.skippedPast <= r.skippedPast && stats.ruleChanged <= r.ruleChanged
      && (r.skippedPast - stats.skippedPast) + (r.ruleChanged - stats.ruleChanged) <= 4 * (r.seen - stats.seen)
      && r.cancelledUnseen == stats.cancelledUnseen
    decreases |events|
  {
    if |events| > 0 {
      var p := SyncEvent(s, events[0], started, localOffset, stats);
      SyncEventCounts(s, events[0], started, localOffset, stats);
      SyncEventsCounts(p.store, events[1..], started, localOffset, p.stats);
      assert Identified(events) == (if HasId(events[0]) then [events[0]] else []) + Identified(events[1..]);
    }
  }

  // ---------------------------------------------------------------------------
  // What the event loop may do to the store.

  /** The occurrence exists, was seen by this pass and is not dropped. */
  predicate SeenLive(s: Store, k: OccKey, started: int) {
    k in s.occurrences && s.occurrences[k].lastSeen == started && s.occurrences[k].dropped == 0
  }

  /** A rule row refreshed in place: only trigger and ack requirement moved, to a future trigger. */
  predicate Refreshed(a: Row, b: Row, s: Store, started: int) {
    && !Terminal(a)
    && b == a.(trigger := b.trigger, requiresAck := b.requiresAck)
    && b.trigger > started
    && SeenLive(s, KeyOf(a), started)
  }

  /** A rule row inserted by this pass. */
  predicate Fresh(b: Row, s: Store, started: int) {
    Pending(b) && b.created == started && b.trigger > started && SeenLive(s, KeyOf(b), started)
  }

  predicate OccEvolves(o: Occ, o': Occ, started: int) {
    o'.dropped == o.dropped && (o'.lastSeen == o.lastSeen || o'.lastSeen == started)
  }

  /**
   * The store `b` differs from `a` only as the event loop of a pass started at
   * `started` allows: occurrences are added or re-seen, never removed or
   * (un)dropped; rule rows are refreshed or added only with future triggers and
   * only for undropped occurrences seen in the pass; custom rows stay.
   */
  ghost predicate Evolves(a: Store, b: Store, started: int) {
    && a.customs == b.customs
    && (forall k :: k in a.occurrences ==> k in b.occurrences && OccEvolves(a.occurrences[k], b.occurrences[k], started))
    && (forall k :: k in b.occurrences && k !in a.occurrences ==>
          b.occurrences[k].dropped == 0 && b.occurrences[k].lastSeen == started)
    && |a.rules| <= |b.rules|
    && (forall i :: 0 <= i < |a.rules| ==> b.rules[i] == a.rules[i] || Refreshed(a.rules[i], b.rules[i], b, started))
    && (forall i :: |a.rules| <= i < |b.rules| ==> Fresh(b.rules[i], b, started))
  }

  lemma EvolvesTransitive(a: Store, b: Store, c: Store, started: int)
    requires Evolves(a, b, started) && Evolves(b, c, started)
    ensures Evolves(a, c, started)
  {
    forall i | 0 <= i < |a.rules| ensures c.rules[i] == a.rules[i] || Refreshed(a.rules[i], c.rules[i], c, started) {
      if b.rules[i] != a.rules[i] {
        assert SeenLive(b, KeyOf(a.rules[i]), started);
      }
    }
    forall i | |a.rules| <= i < |b.rules| ensures Fresh(c.rules[i], c, started) {
      assert SeenLive(b, KeyOf(b.rules[i]), started);
    }
  }

  lemma EnsureEvolves(s: Store, key: OccKey, spec: RuleSpec, trig: int, started: int)
    requires Valid(s) && SeenLive(s, key, started) && trig > started
    ensures var e := EnsureRuleReminder(s, key.eventId, key.start, spec.ruleName, trig, spec.requiresAck, started);
      Valid(e.store) && Evolves(s, e.store, started) && e.store.occurrences == s.occurrences
  {
    var e := EnsureRuleReminder(s, key.eventId, key.start, spec.ruleName, trig, spec.requiresAck, started);
    match FindRuleRow(s.rules, key.eventId, key.start, spec.ruleName)
    case None =>
    case Some(k) =>
      assert HasRuleKey(s.rules[k], key.eventId, key.start, spec.ruleName);
  }

  lemma {:induction false} EnsureSpecsEvolves(
    s: Store, key: OccKey, specs: seq<RuleSpec>, started: int, localOffset: int, stats: SyncStats)
    requires Valid(s) && SeenLive(s, key, started)
    ensures var p := EnsureSpecs(s, key, specs, started, localOffset, stats);
      Valid(p.store) && Evolves(s, p.store, started) && p.store.occurrences == s.occurrences
    decreases |specs|
  {
    if |specs| > 0 {
      var trig := ToUtc(specs[0].trigger, localOffset);
      if trig <= started {
        EnsureSpecsEvolves(s, key, specs[1..], started, localOffset, stats.(skippedPast := stats.skippedPast + 1));
      } else {
        var e := EnsureRuleReminder(s, key.eventId, key.start, specs[0].ruleName, trig, specs[0].requiresAck, started);
        EnsureEvolves(s, key, specs[0], trig, started);
        var stats' := stats.(ruleChanged := stats.ruleChanged + if e.out then 1 else 0);
        EnsureSpecsEvolves(e.store, key, specs[1..], started, localOffset, stats');
        EvolvesTransitive(s, e.store, EnsureSpecs(e.store, key, specs[1..], started, localOffset, stats').store, started);
      }
    }
  }

  /** The effect of one event on the occurrence table. */
  ghost predicate ObservedOnly(a: Store, b: Store, observed: set<OccKey>, started: int) {
    && b.occurrences.Keys == a.occurrences.Keys + observed
    && (forall k :: k in observed ==> b.occurrences[k].lastSeen == started)
    && (forall k :: k in a.occurrences && k !in observed ==> b.occurrences[k] == a.occurrences[k])
  }

  lemma UpsertEvolves(s: Store, key: OccKey, end: int, allDay: int, started: int)
    requires Valid(s)
    ensures var u := UpsertOccurrence(s, key.eventId, key.start, end, allDay, started);
      && Valid(u.store)
      && Evolves(s, u.store, started)
      && ObservedOnly(s, u.store, {key}, started)
  {
    var u := UpsertOccurrence(s, key.eventId, key.start, end, allDay, started);
    assert forall k :: k in s.occurrences && k != key ==> u.store.occurrences[k] == s.occurrences[k];
    assert u.store.rules == s.rules;
  }

  /**
   * One event with an id, unfolded: the upsert keeps the invariant and only
   * touches the event's occurrence; then the spec loop runs exactly when that
   * occurrence is not dropped, and it is then live in this pass.
   */
  lemma SyncEventSplit(s: Store, e: Event, started: int, localOffset: int, stats: SyncStats)
    requires Valid(s) && HasId(e)
    ensures var key := EventKey(e, localOffset);
      var u := UpsertEvent(s, e, started, localOffset);
      && Valid(u.store) && Evolves(s, u.store, started) && ObservedOnly(s, u.store, {key}, started)
      && u.store.rules == s.rules && key in u.store.occurrences
      && (u.store.occurrences[key].dropped == 0 ==>
            && SeenLive(u.store, key, started)
            && SyncEvent(s, e, started, localOffset, stats)
               == EnsureSpecs(u.store, key, ComputeRuleSpecs(e.start, e.end, e.allDay, localOffset), started, localOffset,
                              Counted(stats, u.out)))
      && (u.store.occurrences[key].dropped != 0 ==> SyncEvent(s, e, started, localOffset, stats).store == u.store)
  {
    var key := EventKey(e, localOffset);
    UpsertEvolves(s, key, ToUtc(e.end, localOffset), if e.allDay then 1 else 0, started);
  }

  lemma SyncEventEvolves(s: Store, e: Event, started: int, localOffset: int, stats: SyncStats)
    requires Valid(s)
    ensures var p := SyncEvent(s, e, started, localOffset, stats);
      && Valid(p.store)
      && Evolves(s, p.store, started)
      && ObservedOnly(s, p.store, if HasId(e) then {EventKey(e, localOffset)} else {}, started)
  {
    if HasId(e) {
      var key := EventKey(e, localOffset);
      var u := UpsertEvent(s, e, started, localOffset);
      SyncEventSplit(s, e, started, localOffset, stats);
      if u.store.occurrences[key].dropped == 0 {
        var specs := ComputeRuleSpecs(e.start, e.end, e.allDay, localOffset);
        var p := EnsureSpecs(u.store, key, specs, started, localOffset, Counted(stats, u.out));
        EnsureSpecsEvolves(u.store, key, specs, started, localOffset, Counted(stats, u.out));
        EvolvesTransitive(s, u.store, p.store, started);
      }
    }
  }

  lemma {:induction false} SyncEventsEvolves(s: Store, events: seq<Event>, started: int, localOffset: int, stats: SyncStats)
    requires Valid(s)
    ensures var p := SyncEvents(s, events, started, localOffset, stats);
      && Valid(p.store)
      && Evolves(s, p.store, started)
      && ObservedOnly(s, p.store, ObservedKeys(events, localOffset), started)
    decreases |events|
  {
    if |events| > 0 {
      var p := SyncEvent(s, events[0], started, localOffset, stats);
      SyncEventEvolves(s, events[0], started, localOffset, stats);
      SyncEventsEvolves(p.store, events[1..], started, localOffset, p.stats);
      var q := SyncEvents(p.store, events[1..], started, localOffset, p.stats);
      EvolvesTransitive(s, p.store, q.store, started);
    }
  }

  // ---------------------------------------------------------------------------
  // What a whole pass guarantees.

  /**
   * After a pass started at `started`: every observed occurrence exists with
   * `last_seen_utc == started`; unobserved ones are untouched; no rule
   * reminder got a trigger at or before `started`; only undropped occurrences
   * seen in the pass had rule reminders inserted or refreshed; custom
   * reminders are untouched; and every rule reminder still fully pending
   * belongs to an occurrence seen at or after `started`.
   */
  lemma SyncStoreSpec(s: Store, events: seq<Event>, started: int, localOffset: int)
    requires Valid(s)
    ensures var b := SyncStore(s, events, started, localOffset).store;
      && Valid(b)
      && b.customs == s.customs
      && b.occurrences.Keys == s.occurrences.Keys + ObservedKeys(events, localOffset)
      && (forall k :: k in ObservedKeys(events, localOffset) ==> b.occurrences[k].lastSeen == started)
      && (forall k :: k in s.occurrences && k !in ObservedKeys(events, localOffset) ==>
            b.occurrences[k] == s.occurrences[k])
      && (forall k :: k in s.occurrences ==> b.occurrences[k].dropped == s.occurrences[k].dropped)
      && |s.rules| <= |b.rules|
      && (forall i :: 0 <= i < |s.rules| ==>
            || (b.rules[i].trigger == s.rules[i].trigger && b.rules[i].requiresAck == s.rules[i].requiresAck)
            || (b.rules[i].trigger > started && SeenLive(b, KeyOf(b.rules[i]), started)))
      && (forall i :: |s.rules| <= i < |b.rules| ==>
            && b.rules[i].trigger > started
            && b.rules[i].created == started
            && SeenLive(b, KeyOf(b.rules[i]), started))
      && (forall i :: 0 <= i < |b.rules| && Pending(b.rules[i]) ==>
            b.occurrences[KeyOf(b.rules[i])].lastSeen >= started)
  {
    var p := SyncEvents(s, events, started, localOffset, NoStats);
    SyncEventsEvolves(s, events, started, localOffset, NoStats);
    var c := CancelUnseenRuleReminders(p.store, started, started);
    var b := c.store;
    assert b == SyncStore(s, events, started, localOffset).store;
    forall i | 0 <= i < |b.rules| && Pending(b.rules[i])
      ensures b.occurrences[KeyOf(b.rules[i])].lastSeen >= started
    {
      assert !Unseen(p.store.occurrences, p.store.rules[i], started);
    }
    forall i | |s.rules| <= i < |b.rules|
      ensures b.rules[i].trigger > started && b.rules[i].created == started && SeenLive(b, KeyOf(b.rules[i]), started)
    {
      assert Fresh(p.store.rules[i], p.store, started);
    }
    forall i | 0 <= i < |s.rules|
      ensures || (b.rules[i].trigger == s.rules[i].trigger && b.rules[i].requiresAck == s.rules[i].requiresAck)
              || (b.rules[i].trigger > started && SeenLive(b, KeyOf(b.rules[i]), started))
    {
      if p.store.rules[i] != s.rules[i] {
        assert Refreshed(s.rules[i], p.store.rules[i], p.store, started);
      }
    }
  }

  /**
   * An occurrence that existed before the pass, was last seen before it and
   * is absent from it keeps no fully pending rule reminder.
   */
  lemma UnseenOccurrenceRetracted(s: Store, events: seq<Event>, started: int, localOffset: int, k: OccKey)
    requires Valid(s)
    requires k in s.occurrences && s.occurrences[k].lastSeen < started
    requires k !in ObservedKeys(events, localOffset)
    ensures var b := SyncStore(s, events, started, localOffset).store;
      forall i :: 0 <= i < |b.rules| && KeyOf(b.rules[i]) == k ==> !Pending(b.rules[i])
  {
    SyncStoreSpec(s, events, started, localOffset);
  }
}

=== FILE: refs.dfy ===
/**
 * Reminder references: one external identifier space over the two reminder
 * tables, written "r:<id>" for rule reminders and "c:<id>" for custom ones.
 */
module Refs {
  import opened Base
  import opened PyText

  datatype Kind = Rule | Custom

  datatype Ref = Ref(kind: Kind, id: int)

  /** The two-character tag that starts an external id of the given kind. */
  function Tag(kind: Kind): string {
    if kind == Rule then "r:" else "c:"
  }

  /** `ReminderRef.to_external_id`. */
  function ToExternalId(ref: Ref): (r: string)
    ensures |r| > 2 && r[..2] == Tag(ref.kind)
    ensures ParseInt(r[2..]) == Some(ref.id)
  {
    IntRoundTrip(ref.id);
    var r := Tag(ref.kind) + IntToString(ref.id);
    assert r[2..] == IntToString(ref.id);
    r
  }

  /** `ReminderRef.parse`: `None` where the source raises `ValueError`. */
  function Parse(value: string): (r: Option<Ref>)
    ensures var s := Strip(value);
      r.Some? <==> |s| >= 2 && (s[..2] == "r:" || s[..2] == "c:") && ParseInt(s[2..]).Some?
    ensures var s := Strip(value);
      r.Some? ==> s[..2] == Tag(r.value.kind) && ParseInt(s[2..]) == Some(r.value.id)
  {
    var s := Strip(value);
    if |s| >= 2 && s[..2] == "r:" then
      match ParseInt(s[2..])
      case Some(n) => Some(Ref(Rule, n))
      case None => None
    else if |s| >= 2 && s[..2] == "c:" then
      match ParseInt(s[2..])
      case Some(n) => Some(Ref(Custom, n))
      case None => None
    else None
  }

  /** An unpadded tag and integer parse to the reference they name. */
  lemma ParseTagged(e: string, kind: Kind, n: int)
    requires |e| > 2 && Strip(e) == e && e[..2] == Tag(kind)
    requires ParseInt(e[2..]) == Some(n)
    ensures Parse(e) == Some(Ref(kind, n))
  {
  }

  /** An external id neither starts nor ends with whitespace. */
  lemma ExternalIdUnpadded(ref: Ref)
    ensures var e := ToExternalId(ref); !IsSpace(e[0]) && !IsSpace(e[|e| - 1])
  {
    var e := ToExternalId(ref);
    var d := IntToString(ref.id);
    assert e == Tag(ref.kind) + d;
    assert e[|e| - 1] == d[|d| - 1];
  }

  /** Every reference survives a round trip through its external form. */
  lemma ParseRoundTrip(ref: Ref)
    ensures Parse(ToExternalId(ref)) == Some(ref)
  {
    var e := ToExternalId(ref);
    ExternalIdUnpadded(ref);
    StripUnpadded(e);
    ParseTagged(e, ref.kind, ref.id);
  }

  /** Whitespace around an external id is ignored. */
  lemma ParseIgnoresPadding(ref: Ref, pre: string, post: string)
    requires forall k :: 0 <= k < |pre| ==> IsSpace(pre[k])
    requires forall k :: 0 <= k < |post| ==> IsSpace(post[k])
    ensures Parse(pre + ToExternalId(ref) + post) == Some(ref)
  {
    var e := ToExternalId(ref);
    ExternalIdUnpadded(ref);
    StripPadded(pre, e, post);
    SameStripSameParse(pre + e + post, e);
    ParseRoundTrip(ref);
  }

  lemma SameStripSameParse(a: string, b: string)
    requires Strip(a) == Strip(b)
    ensures Parse(a) == Parse(b)
  {
  }

  /** After trimming, a string that does not begin with "r:" or "c:" is never a reference. */
  lemma RejectsUntagged(value: string)
    requires var s := Strip(value); |s| < 2 || (s[..2] != "r:" && s[..2] != "c:")
    ensures Parse(value) == None
  {
  }
}

=== FILE: rules.dfy ===
/**
 * The rule deriver (`compute_rule_specs`): four fixed reminders per
 * occurrence, computed on the start's wall clock.
 */
module Rules {
  import opened Base

  const Minute := 60
  const Hour := 3600
  const Day := 86400

  /**
   * A Python `datetime`: wall-clock seconds counted from the epoch's wall-clock
   * midnight, and the UTC offset in seconds of its fixed-offset `tzinfo`
   * (`None` for a naive value).
   */
  datatype DateTime = DateTime(wall: int, offset: Option<int>)

  /** `dt.replace(tzinfo=local_tz())` when `dt` is naive; aware values are kept. */
  function Aware(dt: DateTime, localOffset: int): (r: DateTime)
    ensures r.offset.Some? && r.wall == dt.wall
  {
    DateTime(dt.wall, Some(dt.offset.GetOr(localOffset)))
  }

  /** `to_utc_epoch_seconds`: a naive value is read in the local zone. */
  function ToUtc(dt: DateTime, localOffset: int): int {
    dt.wall - dt.offset.GetOr(localOffset)
  }

  /**
   * The instant `ToUtc` gives, shifted by the zone the value is read in, is
   * the wall clock again; a naive value is read as if the local zone were
   * attached, and an aware value does not depend on the local zone.
   */
  lemma ToUtcReadsWallInZone(dt: DateTime, localOffset: int, otherLocal: int)
    ensures ToUtc(dt, localOffset) + Aware(dt, localOffset).offset.value == dt.wall
    ensures ToUtc(dt, localOffset) == ToUtc(Aware(dt, localOffset), otherLocal)
    ensures dt.offset.Some? ==> ToUtc(dt, localOffset) == ToUtc(dt, otherLocal)
  {
  }

  /** The calendar day, counted from the epoch, of a wall-clock time (floor division). */
  function DateOf(dt: DateTime): int {
    dt.wall / Day
  }

  /** Subtracting a `timedelta` keeps the `tzinfo` and moves the wall clock. */
  function Minus(dt: DateTime, seconds: int): DateTime {
    dt.(wall := dt.wall - seconds)
  }

  datatype RuleSpec = RuleSpec(ruleName: string, trigger: DateTime, requiresAck: int)

  const WeekBefore := "week_before"
  const DayBefore := "day_before"
  const SixAm := "six_am"
  const Minus30m := "minus_30m"

  /** `_six_am_on_event_date`: 06:00 on the start's own calendar date, in the start's zone. */
  function SixAmOnEventDate(start: DateTime, localOffset: int): (r: DateTime)
    ensures r.offset == Aware(start, localOffset).offset
    ensures DateOf(r) == DateOf(start)
    ensures r.wall % Day == 6 * Hour
  {
    DateTime(DateOf(start) * Day + 6 * Hour, Aware(start, localOffset).offset)
  }

  /** `compute_rule_specs`. The end and the all-day flag take no part in the result. */
  function ComputeRuleSpecs(start: DateTime, end: DateTime, allDay: bool, localOffset: int): (r: seq<RuleSpec>)
    ensures |r| == 4
    ensures r[0].ruleName == WeekBefore && r[1].ruleName == DayBefore
    ensures r[2].ruleName == SixAm && r[3].ruleName == Minus30m
    ensures r[0].requiresAck == 0 && r[1].requiresAck == 1 && r[2].requiresAck == 0 && r[3].requiresAck == 1
    ensures forall i :: 0 <= i < 4 ==> r[i].trigger.offset == Aware(start, localOffset).offset
    ensures ToUtc(r[0].trigger, localOffset) == ToUtc(start, localOffset) - 7 * Day
    ensures ToUtc(r[1].trigger, localOffset) == ToUtc(start, localOffset) - Day
    ensures ToUtc(r[3].trigger, localOffset) == ToUtc(start, localOffset) - 30 * Minute
    ensures r[2].trigger == SixAmOnEventDate(start, localOffset)
  {
    var s := Aware(start, localOffset);
    [
      RuleSpec(WeekBefore, Minus(s, 7 * Day), 0),
      RuleSpec(DayBefore, Minus(s, Day), 1),
      RuleSpec(SixAm, SixAmOnEventDate(s, localOffset), 0),
      RuleSpec(Minus30m, Minus(s, 30 * Minute), 1)
    ]
  }

  /** The specs depend on the start alone. */
  lemma SpecsIgnoreEndAndAllDay(start: DateTime, e1: DateTime, e2: DateTime, a1: bool, a2: bool, localOffset: int)
    ensures ComputeRuleSpecs(start, e1, a1, localOffset) == ComputeRuleSpecs(start, e2, a2, localOffset)
  {
  }

  /** The three relative triggers come strictly before each other and before the start. */
  lemma RelativeTriggersOrdered(start: DateTime, end: DateTime, allDay: bool, localOffset: int)
    ensures var r := ComputeRuleSpecs(start, end, allDay, localOffset);
      ToUtc(r[0].trigger, localOffset) < ToUtc(r[1].trigger, localOffset) < ToUtc(r[3].trigger, localOffset)
      < ToUtc(start, localOffset)
  {
  }

  /** The 06:00 reminder falls after the start exactly when the start is before 06:00 on its wall clock. */
  lemma {:induction false} SixAmAfterStartIffEarlyStart(start: DateTime, localOffset: int)
    ensures ToUtc(SixAmOnEventDate(start, localOffset), localOffset) > ToUtc(start, localOffset)
      <==> start.wall % Day < 6 * Hour
  {
    var six := SixAmOnEventDate(start, localOffset);
    assert start.wall == DateOf(start) * Day + start.wall % Day;
    assert six.wall == DateOf(start) * Day + 6 * Hour;
  }
}

=== FILE: store.dfy ===
/**
 * The durable store: the `occurrences` table keyed by (event_id, start_utc),
 * the `rule_reminders` table with its unique (event_id, occ_start_utc, rule_name)
 * index, and the `custom_reminders` table. Every mutation is a pure function
 * returning the new store together with what the SQL call reports.
 */
module Store {
  import opened Base
  import opened Refs
  import opened Tables

  datatype OccKey = OccKey(eventId: string, start: int)

  /** The non-key columns of an occurrence row. */
  datatype Occ = Occ(end: int, allDay: int, dropped: int, lastSeen: int)

  /** An occurrence row as `get_occurrence` returns it. */
  datatype OccurrenceRow = OccurrenceRow(eventId: string, start: int, end: int, allDay: int, dropped: int, lastSeen: int)

  datatype Store = Store(occurrences: map<OccKey, Occ>, rules: seq<Row>, customs: seq<Row>)

  /** A new store together with the value the operation returns. */
  datatype Step<T> = Step(store: Store, out: T)

  /** A reminder row together with the reference that names it. */
  datatype Listed = Listed(ref: Ref, row: Row)

  /**
   * The integers `sqlite3` can bind as parameters: a Python int outside the
   * signed 64-bit range makes the call raise `OverflowError` before SQLite
   * sees the statement.
   */
  predicate FitsInt64(i: int) {
    -0x8000_0000_0000_0000 <= i <= 0x7FFF_FFFF_FFFF_FFFF
  }

  /** The freshly migrated database. */
  const Empty := Store(map[], [], [])

  function KeyOf(r: Row): OccKey {
    OccKey(r.eventId, r.occStart)
  }

  predicate HasRuleKey(r: Row, eventId: string, occStart: int, ruleName: string) {
    r.eventId == eventId && r.occStart == occStart && r.ruleName == Some(ruleName)
  }

  predicate SameRuleKey(a: Row, b: Row) {
    a.eventId == b.eventId && a.occStart == b.occStart && a.ruleName == b.ruleName
  }

  /** The unique index `ux_rule_reminders_occ_rule`. */
  predicate RuleKeysUnique(t: seq<Row>) {
    forall i, j :: 0 <= i < j < |t| ==> !SameRuleKey(t[i], t[j])
  }

  /**
   * What the schema guarantees of every reachable store: both reminder tables
   * reference an existing occurrence (the foreign keys), rule rows carry a rule
   * name and custom rows none, and the unique index holds. Read through
   * references: every reminder a reference finds belongs to a stored
   * occurrence, carries a rule name exactly when it is a rule reminder, and no
   * two rule references find rows with the same rule key.
   */
  predicate Valid(s: Store)
    ensures Valid(s) ==> forall ref :: GetReminder(s, ref).Some? ==>
      && KeyOf(GetReminder(s, ref).value.row) in s.occurrences
      && (GetReminder(s, ref).value.row.ruleName.Some? <==> ref.kind == Rule)
    ensures Valid(s) ==> forall a, b ::
      (&& GetReminder(s, a).Some? && GetReminder(s, b).Some? && a.kind == b.kind == Rule
       && SameRuleKey(GetReminder(s, a).value.row, GetReminder(s, b).value.row)) ==> a == b
  {
    && (forall i :: 0 <= i < |s.rules| ==> KeyOf(s.rules[i]) in s.occurrences && s.rules[i].ruleName.Some?)
    && (forall i :: 0 <= i < |s.customs| ==> KeyOf(s.customs[i]) in s.occurrences && s.customs[i].ruleName.None?)
    && RuleKeysUnique(s.rules)
  }

  function Table(s: Store, kind: Kind): seq<Row> {
    if kind == Rule then s.rules else s.customs
  }

  /** Row `id` of the table `ref` names, if that id exists: `get_reminder`. */
  function GetReminder(s: Store, ref: Ref): (r: Option<Listed>)
    ensures r.Some? <==> 1 <= ref.id <= |Table(s, ref.kind)|
    ensures r.Some? ==> r.value.ref == ref && r.value.row == Table(s, ref.kind)[ref.id - 1]
  {
    var t := Table(s, ref.kind);
    if 1 <= ref.id <= |t| then Some(Listed(ref, t[ref.id - 1])) else None
  }

  /** Every reminder row of a valid store belongs to an existing occurrence. */
  lemma ReminderHasOccurrenceRow(s: Store, ref: Ref)
    requires Valid(s) && GetReminder(s, ref).Some?
    ensures KeyOf(GetReminder(s, ref).value.row) in s.occurrences
  {
    if ref.kind == Rule { assert s.rules[ref.id - 1] == GetReminder(s, ref).value.row; }
    else { assert s.customs[ref.id - 1] == GetReminder(s, ref).value.row; }
  }

  /** Replaces the row `ref` names; every other row is untouched. */
  function SetRow(s: Store, ref: Ref, row: Row): (r: Store)
    requires GetReminder(s, ref).Some?
    ensures r.occurrences == s.occurrences
    ensures GetReminder(r, ref) == Some(Listed(ref, row))
    ensures forall other :: other != ref ==> GetReminder(r, other) == GetReminder(s, other)
  {
    if ref.kind == Rule then s.(rules := s.rules[ref.id - 1 := row])
    else s.(customs := s.customs[ref.id - 1 := row])
  }

  function ToOccurrenceRow(k: OccKey, o: Occ): OccurrenceRow {
    OccurrenceRow(k.eventId, k.start, o.end, o.allDay, o.dropped, o.lastSeen)
  }

  /** `get_occurrence`: the stored row of the key, if there is one. */
  function GetOccurrence(s: Store, eventId: string, start: int): (r: Option<OccurrenceRow>)
    ensures r.Some? <==> OccKey(eventId, start) in s.occurrences
    ensures r.Some? ==> r.value.eventId == eventId && r.value.start == start
    ensures r.Some? ==>
      var o := s.occurrences[OccKey(eventId, start)];
      && r.value.end == o.end && r.value.allDay == o.allDay
      && r.value.dropped == o.dropped && r.value.lastSeen == o.lastSeen
  {
    var k := OccKey(eventId, start);
    if k in s.occurrences then Some(ToOccurrenceRow(k, s.occurrences[k])) else None
  }

  /** `list_occurrences_not_seen_since`: every occurrence last seen before the cutoff. */
  function ListOccurrencesNotSeenSince(s: Store, cutoff: int): (r: set<OccurrenceRow>)
    ensures forall o :: o in r <==>
      GetOccurrence(s, o.eventId, o.start) == Some(o) && o.lastSeen < cutoff
  {
    set k | k in s.occurrences && s.occurrences[k].lastSeen < cutoff :: ToOccurrenceRow(k, s.occurrences[k])
  }

  /**
   * `upsert_occurrence`: returns (inserted, changed). A new occurrence is
   * inserted undropped; an existing one gets the new end, all-day flag and
   * last-seen time, keeps its dropped flag, and counts as changed only when
   * the end or the all-day flag differ.
   */
  function UpsertOccurrence(s: Store, eventId: string, start: int, end: int, allDay: int, lastSeen: int)
    : (r: Step<(bool, bool)>)
    ensures r.store.rules == s.rules && r.store.customs == s.customs
    ensures r.store.occurrences.Keys == s.occurrences.Keys + {OccKey(eventId, start)}
    ensures forall k :: k in s.occurrences && k != OccKey(eventId, start) ==>
      r.store.occurrences[k] == s.occurrences[k]
    ensures var before := GetOccurrence(s, eventId, start);
      && (before.None? ==>
            r.out == (true, true)
            && GetOccurrence(r.store, eventId, start) == Some(OccurrenceRow(eventId, start, end, allDay, 0, lastSeen)))
      && (before.Some? ==>
            && !r.out.0
            && (r.out.1 <==> before.value.end != end || before.value.allDay != allDay)
            && GetOccurrence(r.store, eventId, start)
               == Some(before.value.(end := end, allDay := allDay, lastSeen := lastSeen)))
    ensures Valid(s) ==> Valid(r.store)
  {
    var k := OccKey(eventId, start);
    if k !in s.occurrences then
      Step(s.(occurrences := s.occurrences[k := Occ(end, allDay, 0, lastSeen)]), (true, true))
    else
      var o := s.occurrences[k];
      var changed := o.end != end || o.allDay != allDay;
      Step(s.(occurrences := s.occurrences[k := Occ(end, allDay, o.dropped, lastSeen)]), (false, changed))
  }

  /** The first rule row with the given unique key. */
  function FindRuleRow(t: seq<Row>, eventId: string, occStart: int, ruleName: string): (r: Option<nat>)
    ensures r.Some? ==> r.value < |t| && HasRuleKey(t[r.value], eventId, occStart, ruleName)
    ensures r.None? ==> forall k :: 0 <= k < |t| ==> !HasRuleKey(t[k], eventId, occStart, ruleName)
  {
    if |t| == 0 then None
    else if HasRuleKey(t[0], eventId, occStart, ruleName) then Some(0)
    else match FindRuleRow(t[1..], eventId, occStart, ruleName)
      case Some(k) => Some(k + 1)
      case None => None
  }

  /**
   * `ensure_rule_reminder`: an INSERT ... ON CONFLICT DO UPDATE that only
   * updates a conflicting row that is neither acked nor cancelled. The result
   * is SQLite's `rowcount == 1`, which holds for an insert and for a refresh.
   * The foreign key demands that the occurrence exists.
   */
  function EnsureRuleReminder(
    s: Store, eventId: string, occStart: int, ruleName: string,
    trigger: int, requiresAck: int, created: int): (r: Step<bool>)
    requires OccKey(eventId, occStart) in s.occurrences
    ensures r.store.occurrences == s.occurrences && r.store.customs == s.customs
    ensures Valid(s) ==> Valid(r.store)
    ensures FindRuleRow(r.store.rules, eventId, occStart, ruleName).Some?
    ensures FindRuleRow(s.rules, eventId, occStart, ruleName).None? ==>
      && r.out
      && r.store.rules == s.rules + [Row(eventId, occStart, Some(ruleName), trigger, requiresAck, created, None, None, None)]
    ensures Valid(s) ==> forall k :: 0 <= k < |s.rules| && HasRuleKey(s.rules[k], eventId, occStart, ruleName) ==>
      && (r.out <==> !Terminal(s.rules[k]))
      && r.store.rules == s.rules[k := if Terminal(s.rules[k]) then s.rules[k]
                                       else s.rules[k].(trigger := trigger, requiresAck := requiresAck)]
  {
    match FindRuleRow(s.rules, eventId, occStart, ruleName)
    case None =>
      var row := Row(eventId, occStart, Some(ruleName), trigger, requiresAck, created, None, None, None);
      var r := Step(s.(rules := s.rules + [row]), true);
      assert r.store.rules[|s.rules|] == row;
      r
    case Some(k) =>
      if Terminal(s.rules[k]) then Step(s, false)
      else
        var r := Step(s.(rules := s.rules[k := s.rules[k].(trigger := trigger, requiresAck := requiresAck)]), true);
        assert HasRuleKey(r.store.rules[k], eventId, occStart, ruleName);
        r
  }

  /** The rows `cancel_pending_*_reminders_for_occurrence` matches. */
  predicate Cancellable(r: Row, eventId: string, occStart: int) {
    OfOccurrence(r, eventId, occStart) && !Terminal(r)
  }

  function CancellableIn(eventId: string, occStart: int): Row -> bool {
    (r: Row) => Cancellable(r, eventId, occStart)
  }

  function CancelAt(at: int): Row -> Row {
    (r: Row) => r.(cancelled := Some(at))
  }

  /**
   * `cancel_pending_rule_reminders_for_occurrence` (kind Rule) and
   * `cancel_pending_custom_reminders_for_occurrence` (kind Custom): cancels the
   * occurrence's rows that are neither acked nor cancelled, fired ones included,
   * and returns how many rows it changed.
   */
  function CancelPendingForOccurrence(s: Store, kind: Kind, eventId: string, occStart: int, at: int)
    : (r: Step<nat>)
    ensures r.store.occurrences == s.occurrences
    ensures Table(r.store, if kind == Rule then Custom else Rule) == Table(s, if kind == Rule then Custom else Rule)
    ensures |Table(r.store, kind)| == |Table(s, kind)|
    ensures forall i :: 0 <= i < |Table(s, kind)| ==>
      Table(r.store, kind)[i] == if Cancellable(Table(s, kind)[i], eventId, occStart)
                                 then Table(s, kind)[i].(cancelled := Some(at))
                                 else Table(s, kind)[i]
    ensures r.out == Differing(Table(s, kind), Table(r.store, kind))
    ensures Valid(s) ==> Valid(r.store)
  {
    var t := Table(s, kind);
    var t' := UpdateWhere(t, CancellableIn(eventId, occStart), CancelAt(at));
    UpdateCountsChangedRows(t, CancellableIn(eventId, occStart), CancelAt(at));
    var s' := if kind == Rule then s.(rules := t') else s.(customs := t');
    assert Valid(s) ==> RuleKeysUnique(s'.rules) by {
      if kind == Rule && Valid(s) {
        forall i, j | 0 <= i < j < |t'| ensures !SameRuleKey(t'[i], t'[j]) {
          assert SameRuleKey(t'[i], t'[j]) == SameRuleKey(t[i], t[j]);
        }
      }
    }
    Step(s', CountWhere(t, CancellableIn(eventId, occStart)))
  }

  /** `insert_custom_reminder`: appends a pending custom row and returns its new id. */
  function InsertCustomReminder(
    s: Store, eventId: string, occStart: int, trigger: int, requiresAck: int, created: int): (r: Step<int>)
    requires OccKey(eventId, occStart) in s.occurrences
    ensures r.store.occurrences == s.occurrences && r.store.rules == s.rules
    ensures GetReminder(s, Ref(Custom, r.out)).None?
    ensures GetReminder(r.store, Ref(Custom, r.out))
      == Some(Listed(Ref(Custom, r.out), Row(eventId, occStart, None, trigger, requiresAck, created, None, None, None)))
    ensures forall other :: other != Ref(Custom, r.out) ==> GetReminder(r.store, other) == GetReminder(s, other)
    ensures Valid(s) ==> Valid(r.store)
  {
    var row := Row(eventId, occStart, None, trigger, requiresAck, created, None, None, None);
    Step(s.(customs := s.customs + [row]), |s.customs| + 1)
  }

  /**
   * `drop_occurrence`: marks the occurrence dropped (a no-op for an unknown
   * one) and cancels its rule and custom rows that are neither acked nor
   * cancelled. Returns the two counts of cancelled rows.
   */
  function DropOccurrence(s: Store, eventId: string, occStart: int, now: int): (r: Step<(nat, nat)>)
    ensures var k := OccKey(eventId, occStart);
      r.store.occurrences == if k in s.occurrences then s.occurrences[k := s.occurrences[k].(dropped := 1)]
                             else s.occurrences
    ensures |r.store.rules| == |s.rules| && |r.store.customs| == |s.customs|
    ensures forall kind, i :: 0 <= i < |Table(s, kind)| ==>
      Table(r.store, kind)[i] == if Cancellable(Table(s, kind)[i], eventId, occStart)
                                 then Table(s, kind)[i].(cancelled := Some(now))
                                 else Table(s, kind)[i]
    ensures r.out == (Differing(s.rules, r.store.rules), Differing(s.customs, r.store.customs))
    ensures Valid(s) ==> Valid(r.store)
  {
    var k := OccKey(eventId, occStart);
    var s1 := if k in s.occurrences then s.(occurrences := s.occurrences[k := s.occurrences[k].(dropped := 1)]) else s;
    var a := CancelPendingForOccurrence(s1, Rule, eventId, occStart, now);
    var b := CancelPendingForOccurrence(a.store, Custom, eventId, occStart, now);
    Step(b.store, (a.out, b.out))
  }

  /** `mark_fired`: sets `fired_utc` on the named row whatever its state; an unknown id changes nothing. */
  function MarkFired(s: Store, ref: Ref, at: int): (r: Store)
    ensures GetReminder(s, ref).None? ==> r == s
    ensures GetReminder(s, ref).Some? ==>
      GetReminder(r, ref) == Some(Listed(ref, GetReminder(s, ref).value.row.(fired := Some(at))))
    ensures forall other :: other != ref ==> GetReminder(r, other) == GetReminder(s, other)
    ensures r.occurrences == s.occurrences
    ensures Valid(s) ==> Valid(r)
  {
    match GetReminder(s, ref)
    case None => s
    case Some(x) => SetRow(s, ref, x.row.(fired := Some(at)))
  }

  /**
   * `ack_reminder`: sets `acked_utc` only on an existing row whose `acked_utc`
   * is still null, without looking at `cancelled_utc`; reports whether it did.
   */
  function AckReminder(s: Store, ref: Ref, at: int): (r: Step<bool>)
    ensures r.out <==> GetReminder(s, ref).Some? && GetReminder(s, ref).value.row.acked.None?
    ensures !r.out ==> r.store == s
    ensures r.out ==> GetReminder(r.store, ref) == Some(Listed(ref, GetReminder(s, ref).value.row.(acked := Some(at))))
    ensures forall other :: other != ref ==> GetReminder(r.store, other) == GetReminder(s, other)
    ensures r.store.occurrences == s.occurrences
    ensures Valid(s) ==> Valid(r.store)
  {
    match GetReminder(s, ref)
    case None => Step(s, false)
    case Some(x) =>
      if x.row.acked.None? then Step(SetRow(s, ref, x.row.(acked := Some(at))), true) else Step(s, false)
  }

  /** A rule row `cancel_unseen_rule_reminders` retracts: fully pending, of an occurrence last seen before `before`. */
  predicate Unseen(occurrences: map<OccKey, Occ>, r: Row, before: int) {
    Pending(r) && KeyOf(r) in occurrences && occurrences[KeyOf(r)].lastSeen < before
  }

  function UnseenIn(occurrences: map<OccKey, Occ>, before: int): Row -> bool {
    (r: Row) => Unseen(occurrences, r, before)
  }

  /**
   * `cancel_unseen_rule_reminders`: cancels every fully pending rule row whose
   * occurrence was last seen before `before`. Fired rows and custom rows are
   * never touched. Returns how many rows it changed.
   */
  function CancelUnseenRuleReminders(s: Store, before: int, at: int): (r: Step<nat>)
    ensures r.store.occurrences == s.occurrences && r.store.customs == s.customs
    ensures |r.store.rules| == |s.rules|
    ensures forall i :: 0 <= i < |s.rules| ==>
      r.store.rules[i] == if Unseen(s.occurrences, s.rules[i], before)
                          then s.rules[i].(cancelled := Some(at))
                          else s.rules[i]
    ensures r.out == Differing(s.rules, r.store.rules)
    ensures Valid(s) ==> Valid(r.store)
  {
    var t' := UpdateWhere(s.rules, UnseenIn(s.occurrences, before), CancelAt(at));
    UpdateCountsChangedRows(s.rules, UnseenIn(s.occurrences, before), CancelAt(at));
    assert Valid(s) ==> RuleKeysUnique(t') by {
      if Valid(s) {
        forall i, j | 0 <= i < j < |t'| ensures !SameRuleKey(t'[i], t'[j]) {
          assert SameRuleKey(t'[i], t'[j]) == SameRuleKey(s.rules[i], s.rules[j]);
        }
      }
    }
    Step(s.(rules := t'), CountWhere(s.rules, UnseenIn(s.occurrences, before)))
  }
}

=== FILE: tables.dfy ===
/**
 * Reminder rows and the SQL `UPDATE ... WHERE` shape the store applies to a
 * whole table. A table is a sequence; the row at index i has id i + 1.
 */
module Tables {
  import opened Base

  /**
   * One reminder row. Rule rows carry `Some(rule_name)`; custom rows carry `None`.
   * The three nullable timestamps drive the lifecycle.
   */
  datatype Row = Row(
    eventId: string,
    occStart: int,
    ruleName: Option<string>,
    trigger: int,
    requiresAck: int,
    created: int,
    fired: Option<int>,
    acked: Option<int>,
    cancelled: Option<int>)

  /** Neither fired, acked nor cancelled: the only rows the due queries return. */
  predicate Pending(r: Row) {
    r.fired.None? && r.acked.None? && r.cancelled.None?
  }

  /** Acked or cancelled: such rows are never refreshed and never cancelled again. */
  predicate Terminal(r: Row) {
    r.acked.Some? || r.cancelled.Some?
  }

  predicate OfOccurrence(r: Row, eventId: string, occStart: int) {
    r.eventId == eventId && r.occStart == occStart
  }

  /** Rows the table update `p` matches: SQLite's `rowcount` for `UPDATE ... WHERE p`. */
  function CountWhere(t: seq<Row>, p: Row -> bool): (n: nat)
    ensures n <= |t|
  {
    if |t| == 0 then 0 else (if p(t[0]) then 1 else 0) + CountWhere(t[1..], p)
  }

  /** `UPDATE t SET f(row) WHERE p(row)`. */
  function UpdateWhere(t: seq<Row>, p: Row -> bool, f: Row -> Row): seq<Row> {
    seq(|t|, i requires 0 <= i < |t| => if p(t[i]) then f(t[i]) else t[i])
  }

  /** Number of positions at which two equally long tables differ. */
  function Differing(a: seq<Row>, b: seq<Row>): nat
    requires |a| == |b|
  {
    if |a| == 0 then 0 else (if a[0] != b[0] then 1 else 0) + Differing(a[1..], b[1..])
  }

  /** No row differs exactly when the two tables are equal. */
  lemma {:induction false} NoneDifferIffEqual(a: seq<Row>, b: seq<Row>)
    requires |a| == |b|
    ensures Differing(a, b) == 0 <==> a == b
  {
    if |a| > 0 {
      NoneDifferIffEqual(a[1..], b[1..]);
      if a[0] == b[0] && a[1..] == b[1..] {
        assert a == [a[0]] + a[1..] && b == [b[0]] + b[1..];
      }
    }
  }

  /**
   * When the update changes every row it matches, the reported row count is
   * exactly the number of rows whose contents changed.
   */
  lemma {:induction false} UpdateCountsChangedRows(t: seq<Row>, p: Row -> bool, f: Row -> Row)
    requires forall x :: p(x) ==> f(x) != x
    ensures CountWhere(t, p) == Differing(t, UpdateWhere(t, p, f))
  {
    if |t| > 0 {
      var u := UpdateWhere(t, p, f);
      assert u[1..] == UpdateWhere(t[1..], p, f);
      UpdateCountsChangedRows(t[1..], p, f);
    }
  }
}
